=== FILE: README.md ===
# NBSP slave client — a Dafny model

This project models the protocol engine of the NOAAPORT receiver's NBSP
client, `NBSPClient.OpenConnection`, together with its two byte helpers,
`unpack_uint16` and `unpack_uint32`. The client connects to an NBSP master
server on TCP port 2210 and then loops forever. Each iteration:

- announces itself as a slave by writing the four bytes "NBS1";
- reads a 66-byte product header;
- if the header's data identifier is 1 and its block size passes the gate
  `(int)block_size > 0`, reads the payload one byte at a time and hands
  `(file name, content)` to the callback.

An exception anywhere inside the loop ends it. The client is then disposed.

The model has five modules:

- `Numeric` (numeric.dfy) writes out the C# integer semantics the helpers
  rely on over unbounded `int`: the unchecked `(int)` and `(uint)`
  conversions, `<<` on an `int` operand (shift count masked to five bits,
  32-bit wrap) and `|` on two's-complement values.
- `Codec` (codec.dfy) holds `unpack_uint16` and `unpack_uint32` written with
  those operators. A reference big-endian reading (`BigEndian`) pins down
  what they compute, and the encoders `PackUint16` and `PackInt32` invert
  them in both directions.
- `Header` (header.dfy) is the header decoder. It walks the read position
  `p` over the 66-byte buffer exactly as the client does. `Layout` gives the
  field offsets as a reference table, and `Encode` is a sender's encoder.
  Decoding undoes `Encode` for every well-formed header. In the other
  direction, re-encoding a decoded header gives back its 66 bytes except
  the eight bytes the decoder never reads, but only when every file-name
  byte (bytes 20 to 56) is below 0x80. Any other name byte decodes to '?'
  and cannot be recovered.
- `Session` (session.dfy) holds one loop iteration (`Cycle`), the loop
  (`Loop`) and `OpenConnection`. The environment is a sequence of `Reply`
  values: each call the client makes outside itself (the connect, each
  one-byte write, the header read, each one-byte payload read, the callback)
  consumes the next reply, which either returns (a read delivering some
  bytes) or throws. When the replies run out, the session is blocked inside
  a call and still connected (`Awaiting`). The session's observable
  behaviour is a log of `Dialed`, `Sent`, `Delivered` and `Disposed` events.
  An exception ends the loop at the call that threw: an iteration that
  completes made only calls that returned, and once the session has closed,
  replies that would have followed change nothing.
- `Wire` (wire.dfy) models a well-behaved server that sends a run of
  deliverable frames: each has a well-formed header whose block size equals
  its payload's length, and the payload is not empty. Against it, the client
  delivers every frame's product exactly once, unchanged, in wire order. The
  end-to-end "HELLO" example is an instance of that. A well-formed frame
  with an empty payload announces block size 0, fails the gate and is not
  delivered.

In these places the code behaves differently from what its names and
comments suggest, and the model follows the code:

- **Skipped header bytes.** `data_id` is read at offset 0 without advancing
  `p`, so `p += 12` puts the sequence number at offset 12. Only bytes 4 to 11
  are skipped, not twelve reserved bytes after the identifier. The last field
  (block size, bytes 62 to 65) ends exactly at byte 66.
- **Signed `unpack_uint32`.** Despite its name it is not an unsigned
  reading. `b0 << 24` is an `int` shift, so a top byte of 0x80 or more
  sign-extends, and the result is the signed 32-bit reading. A block size
  with its top bit set therefore fails the gate.
- **Header read.** The header is one `Read` whose count is ignored. Bytes it
  did not fill stay 0 (`Filled`). Nothing retries a short read.
- **Payload reads.** The payload loop makes exactly `(int)block_size`
  one-byte reads. A read that returns 0 bytes adds nothing, so the content
  can come out shorter than the block size. It is handed to the callback
  anyway.
- **Failed connect.** `Connect` is outside the `try`. A failed connect
  propagates out of `OpenConnection` and nothing is disposed
  (`ConnectFailed`).
- **Callback exceptions.** The callback runs inside the `try`, so an
  exception it throws also ends the loop and disposes the client.
- **File name.** It is decoded with .NET's ASCII decoding: one character per
  byte, and bytes of 0x80 or more become '?'. It is exactly 37 characters
  and is not trimmed.

## Model

| member | source | states |
|---|---|---|
| Numeric.Int32Of | ChrisZenzel.Noaaport.Receiver/NBSPClient.cs:117 | the unchecked `(int)` conversion yields a 32-bit value congruent to its argument modulo 2^32, and leaves values already in range unchanged |
| Numeric.UInt32Of | ChrisZenzel.Noaaport.Receiver/NBSPClient.cs:175 | the unchecked `(uint)` conversion yields the unique value below 2^32 congruent to its argument |
| Numeric.ShiftLeft32 | ChrisZenzel.Noaaport.Receiver/NBSPClient.cs:173 | `x << k` on an `int` is always a 32-bit value congruent to `x * 2^k` modulo 2^32 (k masked to five bits), so it wraps on overflow and equals the product when that fits |
| Numeric.BitOr | ChrisZenzel.Noaaport.Receiver/NBSPClient.cs:188-190 | `|` on two's-complement values: the result is negative exactly when an operand is, and odd exactly when an operand is |
| Numeric.SignedUnsignedInverse | ChrisZenzel.Noaaport.Receiver/NBSPClient.cs:184-192 | reading a 32-bit pattern as signed and as unsigned are mutually inverse |
| Numeric.BitOrDisjoint | ChrisZenzel.Noaaport.Receiver/NBSPClient.cs:188-190 | `|` of a value with its low k bits clear and a value below 2^k is their sum, for either sign of the first |
| Codec.UnpackUint16 | ChrisZenzel.Noaaport.Receiver/NBSPClient.cs:170-176 | `unpack_uint16` as written equals `b0*256 + b1`, the big-endian reading of the two bytes, and lies in 0..65535 |
| Codec.ByteShifts | ChrisZenzel.Noaaport.Receiver/NBSPClient.cs:187-189 | a byte shifted by 8 or 16 keeps its value times the power of two; shifted by 24 it becomes negative when its top bit is set |
| Codec.OrShiftedBytes | ChrisZenzel.Noaaport.Receiver/NBSPClient.cs:186-191 | the or-chain of the four shifted bytes is a sum whose top term is sign-extended from `b0` |
| Codec.UnpackUint32 | ChrisZenzel.Noaaport.Receiver/NBSPClient.cs:184-192 | `unpack_uint32` is the big-endian value when `b0 < 0x80` and that value minus 2^32 otherwise; the result is always a signed 32-bit value |
| Codec.Uint16RoundTrip | ChrisZenzel.Noaaport.Receiver/NBSPClient.cs:170-176 | `unpack_uint16` reads back every encoded 16-bit value |
| Codec.Uint16Encodes | ChrisZenzel.Noaaport.Receiver/NBSPClient.cs:170-176 | every two bytes are the encoding of what `unpack_uint16` reads from them, so it loses nothing |
| Codec.Int32RoundTrip | ChrisZenzel.Noaaport.Receiver/NBSPClient.cs:184-192 | `unpack_uint32` reads back every encoded signed 32-bit value, negative ones included |
| Codec.Int32Encodes | ChrisZenzel.Noaaport.Receiver/NBSPClient.cs:184-192 | every four bytes are the encoding of what `unpack_uint32` reads from them, so the signed reading loses nothing |
| Header.AsciiText | ChrisZenzel.Noaaport.Receiver/NBSPClient.cs:97 | ASCII decoding keeps the length, always yields ASCII text, and keeps every byte below 0x80 as its own character |
| Header.AsciiRoundTrip | ChrisZenzel.Noaaport.Receiver/NBSPClient.cs:97 | ASCII text encoded and then decoded is unchanged |
| Header.AsciiBytesRoundTrip | ChrisZenzel.Noaaport.Receiver/NBSPClient.cs:97 | bytes below 0x80 decoded and then encoded are unchanged |
| Header.DataIdIsOne | ChrisZenzel.Noaaport.Receiver/NBSPClient.cs:65-69 | the data identifier equals 1 exactly when the first four bytes are 00 00 00 01 |
| Header.Decode | ChrisZenzel.Noaaport.Receiver/NBSPClient.cs:57-114 | a header is accepted exactly when it starts 00 00 00 01; a rejected one reports its identifier; an accepted one ends at byte 66 with a 37-character name |
| Header.DecodeLayout | ChrisZenzel.Noaaport.Receiver/NBSPClient.cs:71-114 | the decoded fields sit at offsets 12, 16, 17, 18, 19, 20..56, 57, 58, 60 and 62 |
| Header.ReadsPayload | ChrisZenzel.Noaaport.Receiver/NBSPClient.cs:117 | for a block size that fits 32 bits, as every decoded one does, the gate `(int)block_size > 0` opens exactly when the block size is positive |
| Header.PayloadLength | ChrisZenzel.Noaaport.Receiver/NBSPClient.cs:117-123 | the payload loop bound lies in 1..2^31-1 and is the block size itself whenever that fits 32 bits |
| Header.GateOnBytes | ChrisZenzel.Noaaport.Receiver/NBSPClient.cs:113-117 | the gate opens exactly when byte 62 is below 0x80 and bytes 62..65 are not all zero, and then the bound is their big-endian value |
| Header.GateOfLayout | ChrisZenzel.Noaaport.Receiver/NBSPClient.cs:113-117 | the same gate equivalence for any header laid out in a buffer |
| Header.EncodeFields | ChrisZenzel.Noaaport.Receiver/NBSPClient.cs:62-114 | the encoder puts each field at the offset the decoder reads it from, with bytes 4..11 zero |
| Header.EncodeLayout | ChrisZenzel.Noaaport.Receiver/NBSPClient.cs:71-114 | an encoded well-formed header satisfies the layout table |
| Header.DecodeEncode | ChrisZenzel.Noaaport.Receiver/NBSPClient.cs:57-114 | decoding an encoded header gives back every field exactly, with the position at byte 66 |
| Header.EncodeDecode | ChrisZenzel.Noaaport.Receiver/NBSPClient.cs:57-114 | re-encoding a decoded header (ASCII name) gives the same 66 bytes except that bytes 4..11 come back zero |
| Header.EncodeOfLayout | ChrisZenzel.Noaaport.Receiver/NBSPClient.cs:71-114 | re-encoding any header laid out in an accepted buffer whose name bytes are ASCII reproduces it outside bytes 4..11 |
| Header.LayoutWellFormed | ChrisZenzel.Noaaport.Receiver/NBSPClient.cs:75-113 | every header laid out in a buffer has each field within its wire width; when the name bytes are ASCII, the name re-encodes to those bytes |
| Header.LayoutFromByte12 | ChrisZenzel.Noaaport.Receiver/NBSPClient.cs:71-114 | every field is determined by bytes 12..65 alone |
| Header.SkippedBytesIgnored | ChrisZenzel.Noaaport.Receiver/NBSPClient.cs:62-72 | bytes 4..11 never influence the decode |
| Session.Returns | ChrisZenzel.Noaaport.Receiver/NBSPClient.cs:44-47 | the count of successive calls that return before one throws or the replies run out |
| Session.ThrowsAfter | ChrisZenzel.Noaaport.Receiver/NBSPClient.cs:38-142 | dropping calls that all returned does not change whether some later call throws |
| Session.SentEvents | ChrisZenzel.Noaaport.Receiver/NBSPClient.cs:43-47 | writing a byte string logs one write per byte, in order, and neither a callback nor a disposal |
| Session.FilledIsPrefixOrPadded | ChrisZenzel.Noaaport.Receiver/NBSPClient.cs:57-58 | after one read, the header buffer is the first 66 bytes that arrived, or all that arrived padded with zeros to 66 |
| Session.FirstByteWritten | ChrisZenzel.Noaaport.Receiver/NBSPClient.cs:125-127 | `FirstByte`, what one payload iteration appends, is the first `c_bytes` bytes of the one-byte buffer its read filled |
| Session.GatheredCons | ChrisZenzel.Noaaport.Receiver/NBSPClient.cs:123-129 | the payload gathered front to back equals the one gathered back to front |
| Session.GatheredBytes | ChrisZenzel.Noaaport.Receiver/NBSPClient.cs:119-132 | the payload holds at most one byte per read, and exactly the delivered bytes, in order, when every read delivered one |
| Session.ReadPayload | ChrisZenzel.Noaaport.Receiver/NBSPClient.cs:119-132 | the payload loop completes exactly when all its reads return, using exactly that many replies; otherwise it stops on an exception exactly when one threw |
| Session.Receive | ChrisZenzel.Noaaport.Receiver/NBSPClient.cs:55-135 | after the identification, an iteration logs at most one callback; it halts on an exception exactly when one of its calls throws, and when it completes it leaves a proper suffix of the replies, which throws exactly when they did |
| Session.AfterHeader | ChrisZenzel.Noaaport.Receiver/NBSPClient.cs:64-135 | after the header read, a rejected header or a closed gate does nothing more and consumes no reply; otherwise at most one callback follows |
| Session.Dispatch | ChrisZenzel.Noaaport.Receiver/NBSPClient.cs:116-134 | the callback fires exactly when all `(int)block_size` reads return, with the header's name and the gathered content |
| Session.Cycle | ChrisZenzel.Noaaport.Receiver/NBSPClient.cs:40-136 | an iteration writes "NBS1" first and logs at most one callback after it; it halts on an exception exactly when one of its calls throws, and when it completes it leaves a proper suffix of the replies, which throws exactly when they did |
| Session.IdentifiedThen | ChrisZenzel.Noaaport.Receiver/NBSPClient.cs:42-133 | the identification followed by at most one callback is an iteration's log |
| Session.DisposalsAppend | ChrisZenzel.Noaaport.Receiver/NBSPClient.cs:143-147 | disposals of a concatenated log add up |
| Session.DeliveriesAppend | ChrisZenzel.Noaaport.Receiver/NBSPClient.cs:133 | the callbacks of a concatenated log are those of each part, in order |
| Session.CycleLogFacts | ChrisZenzel.Noaaport.Receiver/NBSPClient.cs:40-136 | an iteration never disposes the client, and its callback follows its four identification writes |
| Session.IdentifiedAppend | ChrisZenzel.Noaaport.Receiver/NBSPClient.cs:40-136 | "every callback follows its iteration's identification" survives concatenation of logs |
| Session.Loop | ChrisZenzel.Noaaport.Receiver/NBSPClient.cs:38-147 | the loop closes exactly when some call throws, then disposes exactly once, last, and never otherwise; every callback follows its iteration's "NBS1" |
| Session.OpenConnection | ChrisZenzel.Noaaport.Receiver/NBSPClient.cs:24-147 | dials port 2210 first; a failed connect disposes nothing; the session is still running exactly when no call throws; disposal is exactly once on close |
| Session.CycleLogDeliveries | ChrisZenzel.Noaaport.Receiver/NBSPClient.cs:133 | an iteration's log holds its one callback product, if any |
| Session.CycleSkips | ChrisZenzel.Noaaport.Receiver/NBSPClient.cs:64-69 | a header with identifier other than 1, or failing the gate, ends the iteration right after the header read, with no payload read and no callback |
| Session.CycleDelivers | ChrisZenzel.Noaaport.Receiver/NBSPClient.cs:40-135 | an iteration calls back at most once, exactly when the header is accepted, passes the gate and every payload read returns, and then with the 37-character name and the delivered bytes in order |
| Session.ReturnsOneMore | ChrisZenzel.Noaaport.Receiver/NBSPClient.cs:44-58 | n+1 calls return exactly when n do and the next one does too |
| Session.CycleIdentified | ChrisZenzel.Noaaport.Receiver/NBSPClient.cs:42-58 | once "NBS1" is written, the iteration continues as the header read and what follows (an unfolding step of the proofs) |
| Session.CycleUnidentified | ChrisZenzel.Noaaport.Receiver/NBSPClient.cs:44-47 | an iteration whose writes did not all return logs fewer than four events |
| Session.ReceiveAfterHeader | ChrisZenzel.Noaaport.Receiver/NBSPClient.cs:57-69 | a header read that returned hands its filled buffer to the decoder (an unfolding step of the proofs) |
| Session.AfterHeaderLog | ChrisZenzel.Noaaport.Receiver/NBSPClient.cs:69-134 | after the header, the callback fires exactly for an accepted header that passes the gate and whose payload reads all return |
| Session.LoopAfterNext | ChrisZenzel.Noaaport.Receiver/NBSPClient.cs:40-136 | after an iteration completes, the loop continues with the next one (an unfolding step of the proofs) |
| Session.ReturnsExtends | ChrisZenzel.Noaaport.Receiver/NBSPClient.cs:44-47 | calls that all returned, or a run of calls ended by one that threw, stay the same whatever replies follow |
| Session.ReadPayloadUnaffected | ChrisZenzel.Noaaport.Receiver/NBSPClient.cs:119-132 | with more replies after the ones it used, the payload loop gathers the same content and leaves the same rest followed by them; one stopped by an exception stays stopped |
| Session.DispatchUnaffected | ChrisZenzel.Noaaport.Receiver/NBSPClient.cs:116-134 | the payload loop and callback ignore replies after the ones they used: they complete the same way with the extra replies left over, or end on the same exception |
| Session.AfterHeaderUnaffected | ChrisZenzel.Noaaport.Receiver/NBSPClient.cs:64-135 | everything after the header read ignores replies after the ones it used, in the same sense |
| Session.ReceiveUnaffected | ChrisZenzel.Noaaport.Receiver/NBSPClient.cs:55-135 | everything from the header read on ignores replies after the ones it used, in the same sense |
| Session.CycleFaultedWriting | ChrisZenzel.Noaaport.Receiver/NBSPClient.cs:44-47 | an identification write that threw ends the iteration on an exception, with exactly the writes before it logged |
| Session.CycleUnaffected | ChrisZenzel.Noaaport.Receiver/NBSPClient.cs:40-136 | with more replies after those it used, an iteration completes the same way and leaves them after its rest; an iteration ended by an exception is unchanged |
| Session.LoopAfterFault | ChrisZenzel.Noaaport.Receiver/NBSPClient.cs:138-147 | an iteration ended by an exception closes the loop, with one disposal after that iteration's log |
| Session.LoopUnaffected | ChrisZenzel.Noaaport.Receiver/NBSPClient.cs:38-147 | once an exception has closed the loop, replies that would have followed change nothing: the loop stopped at the call that threw |
| Session.OpenConnectionUnaffected | ChrisZenzel.Noaaport.Receiver/NBSPClient.cs:24-147 | a session that has ended, by a failed connect or by an exception, is the same whatever replies would have followed |
| Session.DispatchReturned | ChrisZenzel.Noaaport.Receiver/NBSPClient.cs:116-134 | a payload loop and callback that complete made only calls that returned |
| Session.AfterHeaderReturned | ChrisZenzel.Noaaport.Receiver/NBSPClient.cs:64-135 | everything after the header read, when it completes, made only calls that returned |
| Session.ReceiveReturned | ChrisZenzel.Noaaport.Receiver/NBSPClient.cs:55-135 | everything from the header read on, when it completes, made only calls that returned |
| Session.CycleReturned | ChrisZenzel.Noaaport.Receiver/NBSPClient.cs:38-142 | an iteration that completes made only calls that returned, so an exception always ends the iteration at the call that threw |
| Wire.GatheredByteReplies | ChrisZenzel.Noaaport.Receiver/NBSPClient.cs:119-132 | one-byte reads that each deliver a byte assemble exactly those bytes |
| Wire.DispatchOnFrame | ChrisZenzel.Noaaport.Receiver/NBSPClient.cs:116-134 | a deliverable frame (well formed, with a block size equal to its non-empty payload) is read in full and handed to the callback |
| Wire.ReceiveAccepted | ChrisZenzel.Noaaport.Receiver/NBSPClient.cs:69-117 | an accepted header passing the gate leads straight to the payload and callback (an unfolding step of the proofs) |
| Wire.ReceiveOnFrame | ChrisZenzel.Noaaport.Receiver/NBSPClient.cs:57-134 | the encoded header of a deliverable frame (well formed, with a block size equal to its non-empty payload), followed by its payload, yields exactly that frame's product |
| Wire.CycleOnFrame | ChrisZenzel.Noaaport.Receiver/NBSPClient.cs:40-136 | one iteration against a deliverable frame (well formed, with a block size equal to its non-empty payload) writes "NBS1" and then delivers that frame |
| Wire.FrameDeliveries | ChrisZenzel.Noaaport.Receiver/NBSPClient.cs:133 | the log of an iteration that delivers a frame contributes exactly that frame's product to the callbacks, ahead of whatever follows |
| Wire.LoopOnFrame | ChrisZenzel.Noaaport.Receiver/NBSPClient.cs:40-136 | the loop against a deliverable frame (well formed, with a block size equal to its non-empty payload) runs one delivering iteration and goes on |
| Wire.LoopOnNothing | ChrisZenzel.Noaaport.Receiver/NBSPClient.cs:46 | with no replies the session is blocked in its first write, still connected |
| Wire.LoopOnWire | ChrisZenzel.Noaaport.Receiver/NBSPClient.cs:38-147 | against a run of deliverable frames (each well formed, with a block size equal to its non-empty payload), the loop keeps running and calls back with exactly their products, in wire order |
| Wire.DeliversInWireOrder | ChrisZenzel.Noaaport.Receiver/NBSPClient.cs:24-147 | after a successful connect, every deliverable frame sent (well formed, with a block size equal to its non-empty payload) is handed to the callback exactly once, unchanged, in order |
| Wire.HelloDeliverable | ChrisZenzel.Noaaport.Receiver/NBSPClient.cs:57-117 | the example header (sequence 42, name "TEST.TXT" padded to 37, block size 5) is well formed and announces its five bytes |
| Wire.WireOfOne | ChrisZenzel.Noaaport.Receiver/NBSPClient.cs:40-136 | a run of one frame is that frame (an unfolding step of the proofs) |
| Wire.DeliversOneFrame | ChrisZenzel.Noaaport.Receiver/NBSPClient.cs:24-147 | a server sending one deliverable frame (well formed, with a block size equal to its non-empty payload) gets exactly its product delivered |
| Wire.HelloScenario | ChrisZenzel.Noaaport.Receiver/NBSPClient.cs:24-147 | the "HELLO" example yields exactly one callback, with the padded name and the five bytes |

## Left out

- ChrisZenzel.Noaaport.Receiver/Program.cs is not part of this model. It is
  the host program: temporary-directory creation, file writes, console
  output and a SHA-256 hash through the .NET cryptography library.
- Sockets (`TcpClient`, `Connect`, `NetworkStream`) are not modelled as
  code. Every call is answered by the next reply of a sequence the
  environment supplies. A blocked call is modelled as the replies running
  out (`Awaiting`), since blocking itself cannot be expressed.
- `nbsp.GetStream()` (NBSPClient.cs line 36) is not modelled. Like the
  connect, it sits outside the `try`, but it makes no call to the server,
  so it consumes no reply.
- Console logging (NBSPClient.cs lines 33, 50, 141 and 151) is left out. It
  has no effect on the protocol.
- The `if (nbsp.Connected)` checks only guard console output, so they are
  left out.
- `pack_base64` is left out. It is unused and only wraps
  `Convert.ToBase64String`.
- Decompression is left out because the client never does it. The
  compression flag is decoded and otherwise unused, as are the sequence
  number, type, category, code, channel and the two block counters. Their
  decoding is modelled.
- Concurrency and timeouts are left out. The client has none.
- The callback's own behaviour is outside the model. Only whether it
  returns or throws is modelled, and it is recorded as a `Delivered` event.
- Exception messages are left out. Only the fact that an exception ended
  the loop (`Faulted`, `Closed`) is modelled.
- Session.GatheredBytes: the content is pinned down exactly only when every
  read delivered a byte. When some reads return 0 bytes, the lemma bounds
  the length, and `Gathered` itself, as the reference, defines the content.

=== FILE: codec.dfy ===
/**
  The byte codec of the NBSP client: `unpack_uint16` and `unpack_uint32`,
  which read big-endian integers out of a byte buffer, written with the C#
  operators they use, together with a reference big-endian reading and the
  encoders that invert them.
*/
module Codec {
  import opened Numeric

  /** Reference reading of `bs` as an unsigned big-endian number (Horner's rule). */
  function BigEndian(bs: seq<byte>): nat
    decreases |bs|
  {
    if |bs| == 0 then 0 else BigEndian(bs[..|bs| - 1]) * 0x100 + bs[|bs| - 1] as int
  }

  lemma BigEndian2(bs: seq<byte>)
    requires |bs| == 2
    ensures BigEndian(bs) == bs[0] as int * 0x100 + bs[1] as int
  {
    assert bs[..1][..0] == [];
    assert BigEndian(bs[..1]) == bs[0] as int;
  }

  /** A four-byte sequence is the display of its four bytes. */
  lemma FourBytes(bs: seq<byte>)
    requires |bs| == 4
    ensures bs == [bs[0], bs[1], bs[2], bs[3]]
  {
  }

  lemma BigEndian4(bs: seq<byte>)
    requires |bs| == 4
    ensures BigEndian(bs) ==
      bs[0] as int * 0x100_0000 + bs[1] as int * 0x1_0000 + bs[2] as int * 0x100 + bs[3] as int
  {
    BigEndian2(bs[..2]);
    assert bs[..3][..2] == bs[..2];
    assert BigEndian(bs[..3]) == BigEndian(bs[..2]) * 0x100 + bs[2] as int;
  }

  /**
    `unpack_uint16` as written: `(long)(b0 << 8) + b1`, cast to `uint`.
    It is the unsigned big-endian reading of the two bytes.
  */
  function UnpackUint16(buf: seq<byte>, start: nat): (r: nat)
    requires start + 2 <= |buf|
    ensures r == buf[start] as int * 0x100 + buf[start + 1] as int
    ensures r == BigEndian(buf[start..start + 2])
    ensures r < 0x1_0000
  {
    Pow2Shifts();
    BigEndian2(buf[start..start + 2]);
    UInt32Of(ShiftLeft32(buf[start] as int, 8) + buf[start + 1] as int)
  }

  /**
    The operators of `unpack_uint32` applied to four byte values: `b0 << 24`
    is a 32-bit `int`, sign-extended into the `long` accumulator, and the
    other three shifted bytes are or-ed into it.  No two of the or-ed terms
    share a set bit, so the or is a sum; only the first term can be
    negative, and it is when `b0` has its top bit set.
  */
  function OrShiftedBytes(b0: int, b1: int, b2: int, b3: int): (r: int)
    requires 0 <= b0 < 0x100 && 0 <= b1 < 0x100 && 0 <= b2 < 0x100 && 0 <= b3 < 0x100
    ensures r == (if b0 < 0x80 then b0 else b0 - 0x100) * 0x100_0000 + b1 * 0x1_0000 + b2 * 0x100 + b3
  {
    var top := if b0 < 0x80 then b0 else b0 - 0x100;
    ByteShifts(b0);
    ByteShifts(b1);
    ByteShifts(b2);
    var m1 := top * 0x100 + b1;
    assert BitOr(top * 0x100_0000, b1 * 0x1_0000) == m1 * 0x1_0000 by {
      Pow2Shifts();
      BitOrDisjoint(top, 24, b1 * 0x1_0000);
    }
    var m2 := m1 * 0x100 + b2;
    assert BitOr(m1 * 0x1_0000, b2 * 0x100) == m2 * 0x100 by {
      Pow2Shifts();
      BitOrDisjoint(m1, 16, b2 * 0x100);
    }
    assert BitOr(m2 * 0x100, b3) == m2 * 0x100 + b3 by {
      Pow2Shifts();
      BitOrDisjoint(m2, 8, b3);
    }
    var u := ShiftLeft32(b0, 24);
    var u := BitOr(u, ShiftLeft32(b1, 16));
    var u := BitOr(u, ShiftLeft32(b2, 8));
    BitOr(u, b3)
  }

  /** The three shifts `unpack_uint32` applies to a byte value. */
  lemma ByteShifts(b: int)
    requires 0 <= b < 0x100
    ensures ShiftLeft32(b, 8) == b * 0x100
    ensures ShiftLeft32(b, 16) == b * 0x1_0000
    ensures ShiftLeft32(b, 24) == (if b < 0x80 then b else b - 0x100) * 0x100_0000
  {
    Pow2Shifts();
    Int32OfUnsigned(b * 0x100_0000);
  }

  /**
    `unpack_uint32` as written.  Because the top byte is shifted as an `int`,
    the result is the SIGNED 32-bit reading of the four bytes: the unsigned
    big-endian value when the top byte is below 0x80, that value minus 2^32
    otherwise.
  */
  function UnpackUint32(buf: seq<byte>, start: nat): (r: int)
    requires start + 4 <= |buf|
    ensures IsInt32(r)
    ensures buf[start] < 0x80 ==> r == BigEndian(buf[start..start + 4])
    ensures buf[start] >= 0x80 ==> r == BigEndian(buf[start..start + 4]) - TwoTo32
    ensures r == Int32Of(BigEndian(buf[start..start + 4]))
  {
    var b0, b1, b2, b3 := buf[start] as int, buf[start + 1] as int, buf[start + 2] as int, buf[start + 3] as int;
    BigEndian4(buf[start..start + 4]);
    Int32OfUnsigned(BigEndian(buf[start..start + 4]));
    OrShiftedBytes(b0, b1, b2, b3)
  }

  /** Big-endian encoding of an unsigned 16-bit value. */
  function PackUint16(v: nat): (bs: seq<byte>)
    requires v < 0x1_0000
    ensures |bs| == 2
  {
    [(v / 0x100) as byte, (v % 0x100) as byte]
  }

  /** Big-endian two's-complement encoding of a 32-bit signed value. */
  function PackInt32(v: int): (bs: seq<byte>)
    requires IsInt32(v)
    ensures |bs| == 4
  {
    var u0 := UInt32Of(v);
    var u1 := u0 / 0x100;
    var u2 := u1 / 0x100;
    var u3 := u2 / 0x100;
    [u3 as byte, (u2 % 0x100) as byte, (u1 % 0x100) as byte, (u0 % 0x100) as byte]
  }

  /** Reading back an encoded 16-bit value gives the value. */
  lemma Uint16RoundTrip(v: nat)
    requires v < 0x1_0000
    ensures UnpackUint16(PackUint16(v), 0) == v
  {
  }

  /** Any two bytes are the encoding of what `unpack_uint16` reads from them. */
  lemma Uint16Encodes(buf: seq<byte>, start: nat)
    requires start + 2 <= |buf|
    ensures PackUint16(UnpackUint16(buf, start)) == buf[start..start + 2]
  {
  }

  /** Division by 0x100 splits off the low byte. */
  lemma DivByte(q: int, r: int)
    requires 0 <= r < 0x100
    ensures (q * 0x100 + r) / 0x100 == q && (q * 0x100 + r) % 0x100 == r
  {
  }

  /** Every integer is its quotient by 0x100 followed by its low byte. */
  lemma SplitByte(x: int)
    ensures x == (x / 0x100) * 0x100 + x % 0x100 && 0 <= x % 0x100 < 0x100
  {
  }

  /** The four bytes `PackInt32` produces, in terms of the unsigned pattern of `v`. */
  lemma PackInt32Bytes(v: int, b0: int, b1: int, b2: int, b3: int)
    requires IsInt32(v)
    requires 0 <= b0 < 0x100 && 0 <= b1 < 0x100 && 0 <= b2 < 0x100 && 0 <= b3 < 0x100
    requires UInt32Of(v) == b0 * 0x100_0000 + b1 * 0x1_0000 + b2 * 0x100 + b3
    ensures PackInt32(v) == [b0 as byte, b1 as byte, b2 as byte, b3 as byte]
  {
    DivByte(b0 * 0x1_0000 + b1 * 0x100 + b2, b3);
    DivByte(b0 * 0x100 + b1, b2);
    DivByte(b0, b1);
  }

  /** Reading back an encoded 32-bit value gives the value, negative ones included. */
  lemma Int32RoundTrip(v: int)
    requires IsInt32(v)
    ensures UnpackUint32(PackInt32(v), 0) == v
  {
    var u0 := UInt32Of(v);
    var b3, u1 := u0 % 0x100, u0 / 0x100;
    var b2, u2 := u1 % 0x100, u1 / 0x100;
    var b1, b0 := u2 % 0x100, u2 / 0x100;
    SplitByte(u0);
    SplitByte(u1);
    SplitByte(u2);
    PackInt32Bytes(v, b0, b1, b2, b3);
    var bs := PackInt32(v);
    assert bs[0..4] == bs;
    BigEndian4(bs);
    SignedUnsignedInverse(v, 0);
  }

  /** Any four bytes are the encoding of what `unpack_uint32` reads from them. */
  lemma Int32Encodes(buf: seq<byte>, start: nat)
    requires start + 4 <= |buf|
    ensures PackInt32(UnpackUint32(buf, start)) == buf[start..start + 4]
  {
    var bs := buf[start..start + 4];
    BigEndian4(bs);
    SignedUnsignedInverse(0, BigEndian(bs));
    PackInt32Bytes(UnpackUint32(buf, start), bs[0] as int, bs[1] as int, bs[2] as int, bs[3] as int);
  }
}

=== FILE: header.dfy ===
/**
  The 66-byte NBSP product header and its decoder.  The decoder walks a
  read position `p` over the buffer exactly as `OpenConnection` does: the data
  identifier is read at offset 0 WITHOUT advancing `p`, so the following
  `p += 12` lands the sequence number at offset 12 and bytes 4 to 11 are
  never looked at; the last field then ends exactly at byte 66.
*/
module Header {
  import opened Numeric
  import opened Codec

  const HeaderSize: nat := 66
  const NameLength: nat := 37
  /** The only data identifier whose header is decoded further. */
  const ProductDataId: int := 1

  /** The fields decoded from an accepted header (its data identifier is 1). */
  datatype ProductHeader = ProductHeader(
    sequenceNumber: int,
    productType: byte,
    productCategory: byte,
    productCode: byte,
    channel: byte,
    fileName: string,
    compressed: byte,
    blockIndex: nat,
    blockCount: nat,
    blockSize: int)

  /**
    What one decode attempt yields: a header whose data identifier is not 1
    is rejected before any other field is read; otherwise every field is
    decoded and `end` is where the read position stopped.
  */
  datatype Decoded = Rejected(dataId: int) | Accepted(header: ProductHeader, end: nat)

  /**
    .NET's ASCII decoding of one byte: bytes below 0x80 are that character,
    every other byte becomes the replacement character '?'.
  */
  function AsciiChar(b: byte): char {
    if b < 0x80 then (b as int) as char else '?'
  }

  /** `Encoding.ASCII.GetString`: one character per byte, nothing trimmed. */
  function AsciiText(bs: seq<byte>): (s: string)
    ensures |s| == |bs|
    ensures IsAscii(s)
    ensures forall i :: 0 <= i < |bs| && bs[i] < 0x80 ==> s[i] as int == bs[i] as int
    ensures forall i :: 0 <= i < |bs| ==> s[i] == AsciiChar(bs[i])
  {
    seq(|bs|, i requires 0 <= i < |bs| => AsciiChar(bs[i]))
  }

  predicate IsAscii(s: string) {
    forall i :: 0 <= i < |s| ==> s[i] as int < 0x80
  }

  /** The bytes a sender puts on the wire for an ASCII string. */
  function AsciiBytes(s: string): (bs: seq<byte>)
    requires IsAscii(s)
    ensures |bs| == |s|
  {
    seq(|s|, i requires 0 <= i < |s| => s[i] as int as byte)
  }

  /** ASCII text survives encoding then decoding unchanged. */
  lemma AsciiRoundTrip(s: string)
    requires IsAscii(s)
    ensures AsciiText(AsciiBytes(s)) == s
  {
  }

  /** Bytes below 0x80 survive decoding then encoding unchanged. */
  lemma AsciiBytesRoundTrip(bs: seq<byte>)
    requires forall i :: 0 <= i < |bs| ==> bs[i] < 0x80
    ensures IsAscii(AsciiText(bs)) && AsciiBytes(AsciiText(bs)) == bs
  {
  }

  /**
    The header layout as a table of fixed offsets: where each field of `h`
    sits in `buf`.
  */
  predicate Layout(buf: seq<byte>, h: ProductHeader)
    requires |buf| == HeaderSize
  {
    && h.sequenceNumber == UnpackUint32(buf, 12)
    && h.productType == buf[16]
    && h.productCategory == buf[17]
    && h.productCode == buf[18]
    && h.channel == buf[19]
    && h.fileName == AsciiText(buf[20..57])
    && h.compressed == buf[57]
    && h.blockIndex == UnpackUint16(buf, 58)
    && h.blockCount == UnpackUint16(buf, 60)
    && h.blockSize == UnpackUint32(buf, 62)
  }

  /** The data identifier reads as 1 exactly when the first four bytes are 00 00 00 01. */
  lemma DataIdIsOne(buf: seq<byte>)
    requires 4 <= |buf|
    ensures UnpackUint32(buf, 0) == ProductDataId <==> buf[..4] == [0, 0, 0, 1]
  {
    var b0, b1, b2, b3 := buf[0] as int, buf[1] as int, buf[2] as int, buf[3] as int;
    FourBytes(buf[..4]);
    BigEndian4(buf[0..4]);
    if UnpackUint32(buf, 0) == ProductDataId {
      assert b0 < 0x80;
      assert b0 * 0x100_0000 + b1 * 0x1_0000 + b2 * 0x100 + b3 == 1;
      assert b0 == 0 && b1 == 0 && b2 == 0 && b3 == 1;
    }
  }

  /**
    The header decode of `OpenConnection`.  A header is accepted exactly when
    its first four bytes are 00 00 00 01; an accepted header's file name has
    exactly 37 characters, and the read position `p` ends at byte 66, so
    every read stays inside the buffer.  `DecodeLayout` states where each
    field comes from.
  */
  function Decode(buf: seq<byte>): (r: Decoded)
    requires |buf| == HeaderSize
    ensures r.Accepted? <==> buf[..4] == [0, 0, 0, 1]
    ensures r.Rejected? ==> r.dataId == UnpackUint32(buf, 0) && r.dataId != ProductDataId
    ensures r.Accepted? ==> r.end == HeaderSize
    ensures r.Accepted? ==> |r.header.fileName| == NameLength
  {
    DataIdIsOne(buf);
    var p := 0;
    var dataId := UnpackUint32(buf, p);
    if dataId != ProductDataId then Rejected(dataId)
    else
      var p := p + 12;
      var sequenceNumber := UnpackUint32(buf, p);
      var p := p + 4;
      var productType := buf[p];
      var p := p + 1;
      var productCategory := buf[p];
      var p := p + 1;
      var productCode := buf[p];
      var p := p + 1;
      var channel := buf[p];
      var p := p + 1;
      var fileName := AsciiText(buf[p..p + NameLength]);
      var p := p + NameLength;
      var compressed := buf[p];
      var p := p + 1;
      var blockIndex := UnpackUint16(buf, p);
      var p := p + 2;
      var blockCount := UnpackUint16(buf, p);
      var p := p + 2;
      var blockSize := UnpackUint32(buf, p);
      var p := p + 4;
      Accepted(
        ProductHeader(sequenceNumber, productType, productCategory, productCode, channel,
               fileName, compressed, blockIndex, blockCount, blockSize),
        p)
  }

  /** The fields of an accepted header sit at the fixed offsets of `Layout`. */
  lemma DecodeLayout(buf: seq<byte>)
    requires |buf| == HeaderSize && Decode(buf).Accepted?
    ensures Layout(buf, Decode(buf).header)
  {
  }

  /**
    The gate `(int)block_size > 0` that decides whether a payload is read.
    For a block size that fits 32 bits, as every decoded one does, the cast
    changes nothing and the gate is just "positive".
  */
  predicate ReadsPayload(h: ProductHeader): (gate: bool)
    ensures IsInt32(h.blockSize) ==> (gate <==> h.blockSize > 0)
  {
    Int32Of(h.blockSize) > 0
  }

  /**
    The payload loop bound `(int)block_size`: for a block size that fits 32
    bits it is the block size itself, and it is always below 2^31.
  */
  function PayloadLength(h: ProductHeader): (n: nat)
    requires ReadsPayload(h)
    ensures 0 < n < TwoTo31
    ensures IsInt32(h.blockSize) ==> n == h.blockSize
  {
    Int32Of(h.blockSize)
  }

  /**
    On the wire, the gate opens exactly when the block-size bytes (62 to 65)
    have their top bit clear and are not all zero; a block size of 0, or one
    of 2^31 or more, gives no payload.  When it opens, the payload length is
    the big-endian value of those bytes.
  */
  lemma GateOnBytes(buf: seq<byte>)
    requires |buf| == HeaderSize && Decode(buf).Accepted?
    ensures ReadsPayload(Decode(buf).header) <==> buf[62] < 0x80 && buf[62..66] != [0, 0, 0, 0]
    ensures ReadsPayload(Decode(buf).header) ==> PayloadLength(Decode(buf).header) == BigEndian(buf[62..66])
  {
    DecodeLayout(buf);
    GateOfLayout(buf, Decode(buf).header);
  }

  /** `GateOnBytes` for any header laid out in `buf`. */
  lemma GateOfLayout(buf: seq<byte>, h: ProductHeader)
    requires |buf| == HeaderSize && Layout(buf, h)
    ensures ReadsPayload(h) <==> buf[62] < 0x80 && buf[62..66] != [0, 0, 0, 0]
    ensures ReadsPayload(h) ==> PayloadLength(h) == BigEndian(buf[62..66])
  {
    assert Int32Of(h.blockSize) == h.blockSize;
    var bs := buf[62..66];
    FourBytes(bs);
    BigEndian4(bs);
    assert h.blockSize > 0 <==> bs[0] < 0x80 && (bs[0] != 0 || bs[1] != 0 || bs[2] != 0 || bs[3] != 0);
  }

  /** A header a sender can put on the wire: every field fits its width. */
  predicate WellFormed(h: ProductHeader) {
    && IsInt32(h.sequenceNumber)
    && |h.fileName| == NameLength && IsAscii(h.fileName)
    && h.blockIndex < 0x1_0000
    && h.blockCount < 0x1_0000
    && IsInt32(h.blockSize)
  }

  function Zeros(n: nat): (bs: seq<byte>)
    ensures |bs| == n
    ensures forall i :: 0 <= i < n ==> bs[i] == 0
  {
    seq(n, i => 0)
  }

  /** The 66 header bytes a sender writes for `h`, with bytes 4 to 11 zero. */
  function Encode(h: ProductHeader): (buf: seq<byte>)
    requires WellFormed(h)
    ensures |buf| == HeaderSize
  {
    PackInt32(ProductDataId) + Zeros(8) + PackInt32(h.sequenceNumber)
    + [h.productType, h.productCategory, h.productCode, h.channel]
    + AsciiBytes(h.fileName) + [h.compressed]
    + PackUint16(h.blockIndex) + PackUint16(h.blockCount) + PackInt32(h.blockSize)
  }

  /** `unpack_uint32` reads only the four bytes at `start`. */
  lemma Uint32Local(buf: seq<byte>, start: nat, bs: seq<byte>)
    requires start + 4 <= |buf| && bs == buf[start..start + 4]
    ensures UnpackUint32(buf, start) == UnpackUint32(bs, 0)
  {
    assert bs[0..4] == bs;
  }

  /** `unpack_uint16` reads only the two bytes at `start`. */
  lemma Uint16Local(buf: seq<byte>, start: nat, bs: seq<byte>)
    requires start + 2 <= |buf| && bs == buf[start..start + 2]
    ensures UnpackUint16(buf, start) == UnpackUint16(bs, 0)
  {
    assert bs[0..2] == bs;
  }

  /** Where each field lands in `Encode(h)`. */
  lemma EncodeFields(h: ProductHeader)
    requires WellFormed(h)
    ensures Encode(h)[..4] == PackInt32(ProductDataId)
    ensures Encode(h)[4..12] == Zeros(8)
    ensures Encode(h)[12..16] == PackInt32(h.sequenceNumber)
    ensures Encode(h)[16] == h.productType && Encode(h)[17] == h.productCategory
    ensures Encode(h)[18] == h.productCode && Encode(h)[19] == h.channel
    ensures Encode(h)[20..57] == AsciiBytes(h.fileName)
    ensures Encode(h)[57] == h.compressed
    ensures Encode(h)[58..60] == PackUint16(h.blockIndex)
    ensures Encode(h)[60..62] == PackUint16(h.blockCount)
    ensures Encode(h)[62..66] == PackInt32(h.blockSize)
  {
    var buf := Encode(h);
    var a := PackInt32(ProductDataId) + Zeros(8) + PackInt32(h.sequenceNumber);
    var b := [h.productType, h.productCategory, h.productCode, h.channel];
    var c := AsciiBytes(h.fileName) + [h.compressed];
    var d := PackUint16(h.blockIndex) + PackUint16(h.blockCount) + PackInt32(h.blockSize);
    assert buf == a + b + c + d;
    assert buf[..4] == a[..4];
    assert buf[4..12] == a[4..12];
    assert buf[12..16] == a[12..16];
    assert buf[20..57] == c[..37];
    assert buf[58..60] == d[..2];
    assert buf[60..62] == d[2..4];
    assert buf[62..66] == d[4..8];
  }

  /** The fields of `h` sit at the `Layout` offsets of its encoding. */
  lemma EncodeLayout(h: ProductHeader)
    requires WellFormed(h)
    ensures Layout(Encode(h), h)
  {
    var buf := Encode(h);
    EncodeFields(h);
    Uint32Local(buf, 12, PackInt32(h.sequenceNumber));
    Int32RoundTrip(h.sequenceNumber);
    AsciiRoundTrip(h.fileName);
    Uint16Local(buf, 58, PackUint16(h.blockIndex));
    Uint16RoundTrip(h.blockIndex);
    Uint16Local(buf, 60, PackUint16(h.blockCount));
    Uint16RoundTrip(h.blockCount);
    Uint32Local(buf, 62, PackInt32(h.blockSize));
    Int32RoundTrip(h.blockSize);
  }

  /** Decoding an encoded header gives it back, with the read position at byte 66. */
  lemma DecodeEncode(h: ProductHeader)
    requires WellFormed(h)
    ensures Decode(Encode(h)) == Accepted(h, HeaderSize)
  {
    var buf := Encode(h);
    assert buf[..4] == [0, 0, 0, 1] by {
      EncodeFields(h);
    }
    EncodeLayout(h);
    DecodeLayout(buf);
    LayoutFromByte12(buf, buf, Decode(buf).header, h);
  }

  /**
    Conversely, re-encoding what was decoded from an accepted header whose
    name bytes are ASCII gives the same 66 bytes, except that the skipped
    bytes 4 to 11 come back as zero.
  */
  lemma EncodeDecode(buf: seq<byte>)
    requires |buf| == HeaderSize && Decode(buf).Accepted?
    requires forall i :: 20 <= i < 57 ==> buf[i] < 0x80
    ensures WellFormed(Decode(buf).header)
    ensures Encode(Decode(buf).header) == buf[..4] + Zeros(8) + buf[12..]
  {
    DecodeLayout(buf);
    EncodeOfLayout(buf, Decode(buf).header);
  }

  /** `EncodeDecode` for any header laid out in a buffer that starts 00 00 00 01. */
  lemma EncodeOfLayout(buf: seq<byte>, h: ProductHeader)
    requires |buf| == HeaderSize && buf[..4] == [0, 0, 0, 1] && Layout(buf, h)
    requires forall i :: 20 <= i < 57 ==> buf[i] < 0x80
    ensures WellFormed(h)
    ensures Encode(h) == buf[..4] + Zeros(8) + buf[12..]
  {
    LayoutWellFormed(buf, h);
    Int32Encodes(buf, 12);
    Uint16Encodes(buf, 58);
    Uint16Encodes(buf, 60);
    Int32Encodes(buf, 62);
    EncodeFields(h);
    PackInt32Bytes(ProductDataId, 0, 0, 0, 1);
    Reassemble(Encode(h), buf);
  }

  /**
    A header laid out in a buffer is well formed; when the buffer's name
    bytes are ASCII, re-encoding the name gives those bytes back.
  */
  lemma LayoutWellFormed(buf: seq<byte>, h: ProductHeader)
    requires |buf| == HeaderSize && Layout(buf, h)
    ensures WellFormed(h)
    ensures (forall i :: 20 <= i < 57 ==> buf[i] < 0x80) ==> AsciiBytes(h.fileName) == buf[20..57]
  {
    var name := buf[20..57];
    if forall i :: 20 <= i < 57 ==> buf[i] < 0x80 {
      assert forall i :: 0 <= i < |name| ==> name[i] == buf[20 + i];
      AsciiBytesRoundTrip(name);
    }
  }

  /** Two header-sized buffers that agree field by field agree outside bytes 4 to 11. */
  lemma Reassemble(e: seq<byte>, buf: seq<byte>)
    requires |e| == HeaderSize && |buf| == HeaderSize
    requires e[..4] == buf[..4] && e[4..12] == Zeros(8) && e[12..16] == buf[12..16]
    requires e[16] == buf[16] && e[17] == buf[17] && e[18] == buf[18] && e[19] == buf[19]
    requires e[20..57] == buf[20..57] && e[57] == buf[57]
    requires e[58..60] == buf[58..60] && e[60..62] == buf[60..62] && e[62..66] == buf[62..66]
    ensures e == buf[..4] + Zeros(8) + buf[12..]
  {
    var w := buf[..4] + Zeros(8) + buf[12..];
    forall i | 0 <= i < HeaderSize
      ensures e[i] == w[i]
    {
      if i < 4 {
        assert e[i] == e[..4][i];
      } else if i < 12 {
        assert e[i] == e[4..12][i - 4];
      } else if i < 16 {
        assert e[i] == e[12..16][i - 12] && buf[i] == buf[12..16][i - 12];
      } else if 20 <= i < 57 {
        assert e[i] == e[20..57][i - 20] && buf[i] == buf[20..57][i - 20];
      } else if 58 <= i < 60 {
        assert e[i] == e[58..60][i - 58] && buf[i] == buf[58..60][i - 58];
      } else if 60 <= i < 62 {
        assert e[i] == e[60..62][i - 60] && buf[i] == buf[60..62][i - 60];
      } else if 62 <= i {
        assert e[i] == e[62..66][i - 62] && buf[i] == buf[62..66][i - 62];
      }
    }
  }

  /** Buffers that agree from `lo` on agree on every slice that starts there or later. */
  lemma SameSlice(buf: seq<byte>, other: seq<byte>, lo: nat, a: nat, b: nat)
    requires lo <= a <= b <= |buf| == |other| && buf[lo..] == other[lo..]
    ensures buf[a..b] == other[a..b]
  {
    assert forall i :: a <= i < b ==> buf[i] == buf[lo..][i - lo] && other[i] == other[lo..][i - lo];
  }

  /** Two buffers that agree from byte 12 on lay out the same header fields. */
  lemma LayoutFromByte12(buf: seq<byte>, other: seq<byte>, h: ProductHeader, h': ProductHeader)
    requires |buf| == HeaderSize && |other| == HeaderSize && buf[12..] == other[12..]
    requires Layout(buf, h) && Layout(other, h')
    ensures h == h'
  {
    SameSlice(buf, other, 12, 12, 16);
    SameSlice(buf, other, 12, 16, 20);
    assert forall i :: 16 <= i < 20 ==> buf[i] == buf[16..20][i - 16] && other[i] == other[16..20][i - 16];
    SameSlice(buf, other, 12, 20, 57);
    SameSlice(buf, other, 12, 57, 58);
    assert buf[57] == buf[57..58][0] && other[57] == other[57..58][0];
    SameSlice(buf, other, 12, 58, 60);
    SameSlice(buf, other, 12, 60, 62);
    SameSlice(buf, other, 12, 62, 66);
  }

  /** Bytes 4 to 11 never influence the decode. */
  lemma SkippedBytesIgnored(buf: seq<byte>, other: seq<byte>)
    requires |buf| == HeaderSize && |other| == HeaderSize
    requires buf[..4] == other[..4] && buf[12..] == other[12..]
    ensures Decode(buf) == Decode(other)
  {
    DataIdIsOne(buf);
    DataIdIsOne(other);
    var d, d' := Decode(buf), Decode(other);
    if d.Accepted? {
      LayoutFromByte12(buf, other, d.header, d'.header);
    } else {
      assert buf[0..4] == buf[..4] && other[0..4] == other[..4];
    }
  }
}

=== FILE: numeric.dfy ===
/**
  Two's-complement integer semantics of the C# runtime, written out over
  Dafny's unbounded `int`.  C# `int` is 32 bits wide and `long` is 64 bits;
  an implicit `int` to `long` conversion keeps the value (sign extension), so
  it needs no function of its own here.  Casts, shifts and `|` do need one.
*/
module Numeric {

  /** A C# `byte` (System.Byte). */
  newtype byte = x: int | 0 <= x < 0x100

  const TwoTo31: int := 0x8000_0000
  const TwoTo32: int := 0x1_0000_0000

  function Pow2(k: nat): (r: nat)
    ensures r >= 1
  {
    if k == 0 then 1 else 2 * Pow2(k - 1)
  }

  /** The shift amounts the byte codec uses. */
  lemma Pow2Shifts()
    ensures Pow2(8) == 0x100 && Pow2(16) == 0x1_0000 && Pow2(24) == 0x100_0000
  {
    assert Pow2(4) == 16;
    assert Pow2(8) == 16 * Pow2(4) by {
      assert Pow2(8) == 2 * Pow2(7) == 4 * Pow2(6) == 8 * Pow2(5) == 16 * Pow2(4);
    }
    assert Pow2(16) == 0x100 * Pow2(8) by {
      assert Pow2(16) == 2 * Pow2(15) == 4 * Pow2(14) == 8 * Pow2(13) == 16 * Pow2(12);
      assert Pow2(12) == 2 * Pow2(11) == 4 * Pow2(10) == 8 * Pow2(9) == 16 * Pow2(8);
    }
    assert Pow2(24) == 0x100 * Pow2(16) by {
      assert Pow2(24) == 2 * Pow2(23) == 4 * Pow2(22) == 8 * Pow2(21) == 16 * Pow2(20);
      assert Pow2(20) == 2 * Pow2(19) == 4 * Pow2(18) == 8 * Pow2(17) == 16 * Pow2(16);
    }
  }

  /** Fits in a C# `int` (System.Int32). */
  predicate IsInt32(x: int) {
    -TwoTo31 <= x < TwoTo31
  }

  /** Unchecked C# conversion to `int`: keep the low 32 bits, read them as signed. */
  function Int32Of(x: int): (r: int)
    ensures IsInt32(r)
    ensures (x - r) % TwoTo32 == 0
    ensures IsInt32(x) ==> r == x
  {
    (x + TwoTo31) % TwoTo32 - TwoTo31
  }

  /** An unsigned 32-bit pattern converted to `int`: values from 2^31 up come out negative. */
  lemma Int32OfUnsigned(x: int)
    requires 0 <= x < TwoTo32
    ensures Int32Of(x) == if x < TwoTo31 then x else x - TwoTo32
  {
  }

  /** Reading a 32-bit pattern as signed and as unsigned are inverse to each other. */
  lemma SignedUnsignedInverse(v: int, x: int)
    requires IsInt32(v) && 0 <= x < TwoTo32
    ensures Int32Of(UInt32Of(v)) == v
    ensures UInt32Of(Int32Of(x)) == x
  {
    Int32OfUnsigned(x);
    Int32OfUnsigned(UInt32Of(v));
  }

  /** Unchecked C# conversion to `uint` (System.UInt32): keep the low 32 bits. */
  function UInt32Of(x: int): (r: nat)
    ensures r < TwoTo32
    ensures (x - r) % TwoTo32 == 0
    ensures 0 <= x < TwoTo32 ==> r == x
  {
    x % TwoTo32
  }

  /** The shift count C# uses for an `int` operand: the low five bits of `k`. */
  function ShiftCount(k: nat): (c: nat)
    ensures c < 32
    ensures k < 32 ==> c == k
  {
    k % 32
  }

  /**
    C# `x << k` on an `int` operand: the shift count is masked to its low five
    bits and the product wraps to 32 bits.
  */
  function ShiftLeft32(x: int, k: nat): (r: int)
    ensures IsInt32(r)
    ensures (x * Pow2(ShiftCount(k)) - r) % TwoTo32 == 0
    ensures IsInt32(x * Pow2(ShiftCount(k))) ==> r == x * Pow2(ShiftCount(k))
  {
    Int32Of(x * Pow2(ShiftCount(k)))
  }

  /** A measure that halves with every arithmetic shift right: 0 exactly on 0 and -1. */
  function Magnitude(x: int): nat {
    if x < 0 then -x - 1 else x
  }

  /**
    Bitwise `|` of two two's-complement integers, one bit at a time from the
    least significant end; `x / 2` is the arithmetic shift right because
    Dafny's division rounds down for a positive divisor.  On `long` operands
    this is the C# `|` operator.
  */
  function BitOr(a: int, b: int): (r: int)
    ensures r < 0 <==> a < 0 || b < 0
    ensures r % 2 == 1 <==> a % 2 == 1 || b % 2 == 1
    decreases Magnitude(a) + Magnitude(b)
  {
    if Magnitude(a) == 0 && Magnitude(b) == 0 then
      (if a < 0 || b < 0 then -1 else 0)
    else
      2 * BitOr(a / 2, b / 2) + (if a % 2 == 1 || b % 2 == 1 then 1 else 0)
  }

  /** Zero is the identity of `|`. */
  lemma {:induction false} BitOrZero(a: int)
    ensures BitOr(a, 0) == a
    decreases Magnitude(a)
  {
    if Magnitude(a) != 0 {
      BitOrZero(a / 2);
    }
  }

  /**
    When the low `k` bits of `a` are clear and `b` lies in `0 .. 2^k`, the two
    share no set bit and `a | b` is their sum — whatever the sign of `a`.
  */
  lemma {:induction false} BitOrDisjoint(m: int, k: nat, b: int)
    requires 0 <= b < Pow2(k)
    ensures BitOr(m * Pow2(k), b) == m * Pow2(k) + b
  {
    if k == 0 {
      BitOrZero(m);
    } else {
      assert m * Pow2(k) == 2 * (m * Pow2(k - 1));
      BitOrDisjoint(m, k - 1, b / 2);
    }
  }
}

=== FILE: session.dfy ===
/**
  The NBSP session of `OpenConnection`: connect to the master server, then
  loop forever — write "NBS1", read a 66-byte header, and when the header is
  accepted and its block size passes the gate read the payload one byte at
  a time and hand `(file name, content)` to the callback.  The loop ends
  only when something throws; the exception is caught and the client is
  disposed.

  The network and the callback are not modelled as code: every call the
  session makes outside itself — the connect, each one-byte write, the
  header read, each one-byte payload read, the callback — is answered by
  the next `Reply` of a sequence the environment supplies.  When that
  sequence runs out the session is blocked inside a call, still open.
*/
module Session {
  import opened Numeric
  import opened Codec
  import opened Header

  /** The master server's TCP port. */
  const Port: int := 2210

  /** `Encoding.ASCII.GetBytes("NBS1")`, the slave identification. */
  const Identification: seq<byte> := [0x4E, 0x42, 0x53, 0x31]

  /**
    How an outside call ended.  `Returned(data)` for a read of up to `n`
    bytes delivers the first `n` bytes of `data` (a read never returns more
    than it asked for; an empty `data` is a read that returned 0); for a
    write, a connect or the callback the data is ignored.
  */
  datatype Reply = Returned(data: seq<byte>) | Threw

  /** One product handed to the callback. */
  datatype Product = Product(fileName: string, content: seq<byte>)

  /** What an observer of the session sees, in order. */
  datatype Event =
    | Dialed(host: string, port: int)
    | Sent(b: byte)
    | Delivered(product: Product)
    | Disposed

  /** Why a cycle did not reach the next one: an exception, or the replies ran out mid-call. */
  datatype Stop = Faulted | Starved

  /** One iteration of the `do { … } while (true)` loop. */
  datatype Step = Next(log: seq<Event>, rest: seq<Reply>) | Halt(log: seq<Event>, why: Stop)

  /**
    `Awaiting`: the session is blocked in a call, still connected.
    `Closed`: an exception ended the loop and the client was disposed.
    `ConnectFailed`: `Connect` threw; it sits before the `try`, so the
    exception leaves `OpenConnection` and nothing is disposed.
  */
  datatype Status = Awaiting | Closed | ConnectFailed

  /** A session as an observer sees it: everything it did, in order, and where it stands. */
  datatype Outcome = Outcome(log: seq<Event>, status: Status)

  /** The outcome of the payload loop. */
  datatype PayloadRead = Done(content: seq<byte>, rest: seq<Reply>) | Stopped(why: Stop)

  /** How many of `n` successive calls return before one throws or the replies run out. */
  function Returns(replies: seq<Reply>, n: nat): (k: nat)
    ensures k <= n && k <= |replies|
    ensures forall i :: 0 <= i < k ==> replies[i].Returned?
    ensures k < n && k < |replies| ==> replies[k].Threw?
  {
    if n == 0 || |replies| == 0 || replies[0].Threw? then 0
    else 1 + Returns(replies[1..], n - 1)
  }

  /** The first `n` calls answered by `replies` all returned. */
  predicate ReturnedBefore(replies: seq<Reply>, n: nat) {
    n <= |replies| && forall i :: 0 <= i < n ==> replies[i].Returned?
  }

  /** `k` calls that returned, followed by `n - k` more that returned, are `n` calls that returned. */
  lemma ReturnedBeforeJoin(replies: seq<Reply>, k: nat, n: nat)
    requires k <= n
    requires ReturnedBefore(replies, k) && ReturnedBefore(replies[k..], n - k)
    ensures ReturnedBefore(replies, n)
  {
    forall i | k <= i < n
      ensures replies[i].Returned?
    {
      assert replies[k..][i - k] == replies[i];
    }
  }

  /** Some call answered by `replies` throws. */
  predicate Throws(replies: seq<Reply>) {
    exists i :: 0 <= i < |replies| && replies[i].Threw?
  }

  /** Leaving out calls that all returned does not change whether some call throws. */
  lemma ThrowsAfter(replies: seq<Reply>, k: nat)
    requires k <= |replies| && forall i :: 0 <= i < k ==> replies[i].Returned?
    ensures Throws(replies) <==> Throws(replies[k..])
  {
    if Throws(replies) {
      var i :| 0 <= i < |replies| && replies[i].Threw?;
      assert replies[k..][i - k].Threw?;
    }
    if Throws(replies[k..]) {
      var j :| 0 <= j < |replies[k..]| && replies[k..][j].Threw?;
      assert replies[k + j].Threw?;
    }
  }

  /**
    A step taken on the replies after `k` calls that returned keeps, about
    the whole of `replies`, what it said about the replies it was given.
  */
  lemma StepAfterReturned(replies: seq<Reply>, k: nat, r: Step)
    requires ReturnedBefore(replies, k)
    requires r.Next? ==> |r.rest| <= |replies[k..]| && r.rest == replies[k..][|replies[k..]| - |r.rest|..]
    requires r.Next? ==> (Throws(replies[k..]) <==> Throws(r.rest))
    requires r.Halt? ==> (r.why == Faulted <==> Throws(replies[k..]))
    ensures r.Next? ==> |r.rest| <= |replies| - k && r.rest == replies[|replies| - |r.rest|..]
    ensures r.Next? ==> (Throws(replies) <==> Throws(r.rest))
    ensures r.Halt? ==> (r.why == Faulted <==> Throws(replies))
  {
    ThrowsAfter(replies, k);
    if r.Next? {
      assert replies[k..][|replies[k..]| - |r.rest|..] == replies[|replies| - |r.rest|..];
    }
  }

  /**
    What writing `bs` byte by byte logs: one write per byte, in order, and
    neither a callback nor a disposal.
  */
  function SentEvents(bs: seq<byte>): (log: seq<Event>)
    ensures |log| == |bs|
    ensures forall i :: 0 <= i < |bs| ==> log[i] == Sent(bs[i])
    ensures Deliveries(log) == [] && Disposals(log) == 0
  {
    var log := seq(|bs|, i requires 0 <= i < |bs| => Sent(bs[i]));
    NoDeliveries(log);
    NoDisposal(log);
    log
  }

  /**
    The array `new byte[n]` after one `Read(buffer, 0, n)` that returned
    `data`: the bytes that arrived, then the zeros it was created with.
  */
  function Filled(data: seq<byte>, n: nat): (buf: seq<byte>)
    ensures |buf| == n
    ensures forall i :: 0 <= i < n ==> buf[i] == (if i < |data| then data[i] else 0)
  {
    seq(n, i requires 0 <= i < n => if i < |data| then data[i] else 0)
  }

  /**
    The buffer after the read holds the first `n` bytes that arrived, or,
    when fewer arrived, all of them padded with zeros to `n`.
  */
  lemma FilledIsPrefixOrPadded(data: seq<byte>, n: nat)
    ensures |data| >= n ==> Filled(data, n) == data[..n]
    ensures |data| < n ==> Filled(data, n) == data + Zeros(n - |data|)
  {
  }

  /**
    What `ms_data.Write(data_buffer, 0, c_bytes)` appends after a one-byte
    read: the first `c_bytes` bytes of the one-byte buffer that read filled,
    where `c_bytes` is 1 if a byte arrived and 0 otherwise.
  */
  function FirstByte(data: seq<byte>): (bs: seq<byte>)
    ensures |bs| == (if |data| == 0 then 0 else 1)
  {
    if |data| == 0 then [] else [data[0]]
  }

  /** A one-byte read appends exactly the bytes it put in its one-byte buffer. */
  lemma FirstByteWritten(data: seq<byte>)
    ensures FirstByte(data) == Filled(data, 1)[..|FirstByte(data)|]
  {
  }

  /**
    Reference for the payload: what a run of returned one-byte reads put in
    the memory stream, in order — built from the last read backwards.
  */
  function Gathered(rs: seq<Reply>): seq<byte>
    requires forall i :: 0 <= i < |rs| ==> rs[i].Returned?
  {
    if |rs| == 0 then [] else Gathered(rs[..|rs| - 1]) + FirstByte(rs[|rs| - 1].data)
  }

  /** Gathering the first read and then the others is gathering them all. */
  lemma {:induction false} GatheredCons(rs: seq<Reply>)
    requires |rs| > 0 && forall i :: 0 <= i < |rs| ==> rs[i].Returned?
    ensures Gathered(rs) == FirstByte(rs[0].data) + Gathered(rs[1..])
    decreases |rs|
  {
    if |rs| > 1 {
      var init, first, last := rs[..|rs| - 1], FirstByte(rs[0].data), FirstByte(rs[|rs| - 1].data);
      var middle := Gathered(init[1..]);
      assert Gathered(init) == first + middle by {
        GatheredCons(init);
      }
      assert Gathered(rs[1..]) == middle + last by {
        assert init[1..] == rs[1..][..|rs| - 2];
      }
      assert (first + middle) + last == first + (middle + last);
    } else {
      assert rs[..0] == [] && rs[1..] == [];
    }
  }

  /**
    The payload holds at most one byte per read, and when every read
    delivered a byte it holds exactly those bytes, one per read, in order.
  */
  lemma {:induction false} GatheredBytes(rs: seq<Reply>)
    requires forall i :: 0 <= i < |rs| ==> rs[i].Returned?
    ensures |Gathered(rs)| <= |rs|
    ensures (forall i :: 0 <= i < |rs| ==> |rs[i].data| > 0) ==>
      |Gathered(rs)| == |rs| && forall i :: 0 <= i < |rs| ==> Gathered(rs)[i] == rs[i].data[0]
    decreases |rs|
  {
    if |rs| > 0 {
      GatheredBytes(rs[..|rs| - 1]);
    }
  }

  /**
    The payload loop `for (i = 0; i < n; i++)`: exactly `n` one-byte reads.
    It completes exactly when all `n` reads return, and then it has used
    exactly `n` replies and gathered what they delivered.  Otherwise it
    stopped on an exception if one of the reads threw, or it is still
    blocked because the replies ran out.
  */
  function ReadPayload(n: nat, replies: seq<Reply>): (r: PayloadRead)
    ensures r.Done? <==> Returns(replies, n) == n
    ensures r.Done? ==> r.rest == replies[n..] && r.content == Gathered(replies[..n])
    ensures r.Stopped? ==> (r.why == Faulted <==> Returns(replies, n) < |replies|)
  {
    if n == 0 then Done([], replies)
    else if |replies| == 0 then Stopped(Starved)
    else
      match replies[0]
      case Threw => Stopped(Faulted)
      case Returned(data) =>
        match ReadPayload(n - 1, replies[1..])
        case Stopped(why) => Stopped(why)
        case Done(content, rest) =>
          assert replies[..n][1..] == replies[1..][..n - 1];
          GatheredCons(replies[..n]);
          Done(FirstByte(data) + content, rest)
  }

  /**
    What one iteration can log: the identification bytes whose writes
    returned, then at most one delivery, which comes after all four.
  */
  predicate CycleLog(log: seq<Event>) {
    && |log| <= |Identification| + 1
    && (forall i :: 0 <= i < |log| && i < |Identification| ==> log[i] == Sent(Identification[i]))
    && (|log| == |Identification| + 1 ==> log[4].Delivered?)
  }

  /**
    The part of an iteration after the identification: read the header,
    and when it is accepted and passes the gate read the payload and call
    back.  It logs nothing but the callback.  It halts on an exception
    exactly when one of its calls throws; when it completes, the calls it
    made all returned.
  */
  function Receive(replies: seq<Reply>): (r: Step)
    ensures |r.log| <= 1 && (|r.log| == 1 ==> r.log[0].Delivered?)
    ensures r.Next? ==> |r.rest| < |replies| && r.rest == replies[|replies| - |r.rest|..]
    ensures r.Next? ==> (Throws(replies) <==> Throws(r.rest))
    ensures r.Halt? ==> (r.why == Faulted <==> Throws(replies))
  {
    if |replies| == 0 then Halt([], Starved)
    else if replies[0].Threw? then Halt([], Faulted)
    else
      var r := AfterHeader(Decode(Filled(replies[0].data, HeaderSize)), replies[1..]);
      StepAfterReturned(replies, 1, r);
      r
  }

  /**
    What follows a header read that returned, given its decode: nothing for
    a rejected header or a closed gate, otherwise the payload and callback.
  */
  function AfterHeader(d: Decoded, replies: seq<Reply>): (r: Step)
    ensures d.Rejected? || !ReadsPayload(d.header) ==> r == Next([], replies)
    ensures |r.log| <= 1 && (|r.log| == 1 ==> r.log[0].Delivered?)
    ensures r.Next? ==> |r.rest| <= |replies| && r.rest == replies[|replies| - |r.rest|..]
    ensures r.Next? ==> (Throws(replies) <==> Throws(r.rest))
    ensures r.Halt? ==> (r.why == Faulted <==> Throws(replies))
  {
    match d
    case Rejected(_) => Next([], replies)
    case Accepted(h, _) =>
      if !ReadsPayload(h) then Next([], replies) else Dispatch(h, replies)
  }

  /**
    The payload loop for an accepted header that passed the gate, then the
    callback with the header's file name and the gathered content.
  */
  function Dispatch(h: ProductHeader, replies: seq<Reply>): (r: Step)
    requires ReadsPayload(h)
    ensures |r.log| <= 1
    ensures |r.log| == 1 <==> Returns(replies, PayloadLength(h)) == PayloadLength(h)
    ensures |r.log| == 1 ==>
      r.log[0] == Delivered(Product(h.fileName, Gathered(replies[..PayloadLength(h)])))
    ensures r.Next? ==> |r.rest| < |replies| && r.rest == replies[|replies| - |r.rest|..]
    ensures r.Next? ==> (Throws(replies) <==> Throws(r.rest))
    ensures r.Halt? ==> (r.why == Faulted <==> Throws(replies))
  {
    var n := PayloadLength(h);
    match ReadPayload(n, replies)
    case Stopped(why) =>
      assert why == Faulted ==> replies[Returns(replies, n)].Threw?;
      Halt([], why)
    case Done(content, rest) =>
      assert Throws(replies) <==> Throws(rest) by { ThrowsAfter(replies, n); }
      var log := [Delivered(Product(h.fileName, content))];
      if |rest| == 0 then Halt(log, Starved)
      else if rest[0].Threw? then
        assert Throws(rest) by { assert rest[0].Threw?; }
        Halt(log, Faulted)
      else
        assert Throws(rest) <==> Throws(rest[1..]) by { ThrowsAfter(rest, 1); }
        Next(log, rest[1..])
  }

  /**
    One iteration of the loop.  It first writes "NBS1" byte by byte; an
    iteration that completes wrote all four.  It logs at most one delivery,
    last.  It halts on an exception exactly when one of its calls throws;
    one that completes made calls that all returned, at least one, and
    leaves the rest.
  */
  function Cycle(replies: seq<Reply>): (r: Step)
    ensures CycleLog(r.log)
    ensures r.Next? ==> |r.log| >= 4 && r.log[..4] == SentEvents(Identification)
    ensures r.Next? ==> |r.rest| < |replies| && r.rest == replies[|replies| - |r.rest|..]
    ensures r.Next? ==> (Throws(replies) <==> Throws(r.rest))
    ensures r.Halt? ==> (r.why == Faulted <==> Throws(replies))
  {
    var written := Returns(replies, |Identification|);
    var log := SentEvents(Identification[..written]);
    if written < |Identification| then
      assert written < |replies| ==> replies[written].Threw?;
      Halt(log, if written < |replies| then Faulted else Starved)
    else
      assert Identification[..written] == Identification;
      ThrowsAfter(replies, |Identification|);
      var rs := replies[|Identification|..];
      var r := Receive(rs);
      IdentifiedThen(log, r.log);
      match r
      case Next(more, rest) => Next(log + more, rest)
      case Halt(more, why) => Halt(log + more, why)
  }

  /** The identification followed by what `Receive` logs is an iteration's log. */
  lemma IdentifiedThen(log: seq<Event>, more: seq<Event>)
    requires log == SentEvents(Identification)
    requires |more| <= 1 && (|more| == 1 ==> more[0].Delivered?)
    ensures CycleLog(log + more)
    ensures (log + more)[..4] == log
  {
    assert Identification[..4] == Identification;
    if |more| == 0 {
      assert log + more == log;
    }
  }

  function Disposals(log: seq<Event>): nat {
    if |log| == 0 then 0 else (if log[0] == Disposed then 1 else 0) + Disposals(log[1..])
  }

  lemma {:induction false} DisposalsAppend(a: seq<Event>, b: seq<Event>)
    ensures Disposals(a + b) == Disposals(a) + Disposals(b)
    decreases |a|
  {
    if |a| > 0 {
      assert (a + b)[1..] == a[1..] + b;
      DisposalsAppend(a[1..], b);
    } else {
      assert a + b == b;
    }
  }

  /** The products handed to the callback, in the order the log records them. */
  function Deliveries(log: seq<Event>): seq<Product> {
    if |log| == 0 then []
    else (if log[0].Delivered? then [log[0].product] else []) + Deliveries(log[1..])
  }

  lemma {:induction false} DeliveriesAppend(a: seq<Event>, b: seq<Event>)
    ensures Deliveries(a + b) == Deliveries(a) + Deliveries(b)
    decreases |a|
  {
    if |a| > 0 {
      assert (a + b)[1..] == a[1..] + b;
      DeliveriesAppend(a[1..], b);
    } else {
      assert a + b == b;
    }
  }

  /** The four events before position `i` are the identification writes. */
  predicate IdentifiedAt(log: seq<Event>, i: int) {
    4 <= i <= |log| && log[i - 4..i] == SentEvents(Identification)
  }

  /** Every callback is immediately preceded by the four identification writes of its iteration. */
  predicate IdentifiedDeliveries(log: seq<Event>) {
    forall i :: 0 <= i < |log| && log[i].Delivered? ==> IdentifiedAt(log, i)
  }

  /** An iteration's log holds only writes and at most one callback, never a disposal. */
  lemma CycleLogFacts(log: seq<Event>)
    requires CycleLog(log)
    ensures Disposals(log) == 0
    ensures IdentifiedDeliveries(log)
    ensures forall i :: 0 <= i < |log| ==> log[i].Sent? || log[i].Delivered?
  {
    if |log| == |Identification| + 1 {
      assert log[..4] == SentEvents(Identification);
      assert IdentifiedAt(log, 4);
    }
    NoDisposal(log);
  }

  lemma {:induction false} NoDisposal(log: seq<Event>)
    requires forall i :: 0 <= i < |log| ==> log[i] != Disposed
    ensures Disposals(log) == 0
    decreases |log|
  {
    if |log| > 0 {
      NoDisposal(log[1..]);
    }
  }

  lemma IdentifiedAtLeft(a: seq<Event>, b: seq<Event>, i: int)
    requires IdentifiedAt(a, i)
    ensures IdentifiedAt(a + b, i)
  {
    assert (a + b)[i - 4..i] == a[i - 4..i];
  }

  lemma IdentifiedAtRight(a: seq<Event>, b: seq<Event>, j: int)
    requires IdentifiedAt(b, j)
    ensures IdentifiedAt(a + b, |a| + j)
  {
    assert (a + b)[|a| + j - 4..|a| + j] == b[j - 4..j];
  }

  lemma IdentifiedAppend(a: seq<Event>, b: seq<Event>)
    requires IdentifiedDeliveries(a) && IdentifiedDeliveries(b)
    ensures IdentifiedDeliveries(a + b)
  {
    var ab := a + b;
    forall i | 0 <= i < |ab| && ab[i].Delivered?
      ensures IdentifiedAt(ab, i)
    {
      if i < |a| {
        assert a[i] == ab[i];
        IdentifiedAtLeft(a, b, i);
      } else {
        assert b[i - |a|] == ab[i];
        IdentifiedAtRight(a, b, i - |a|);
      }
    }
  }

  /**
    The `do { … } while (true)` loop inside `try`/`catch`/`finally`.  It
    ends only through an exception: if no reply throws, the session is
    still running; when it has closed, some reply threw.  The client is
    disposed exactly once when the loop ends and never before, and every
    callback follows the identification of its own iteration.
  */
  function Loop(replies: seq<Reply>): (s: Outcome)
    decreases |replies|
    ensures s.status != ConnectFailed
    ensures s.status == Closed <==> Throws(replies)
    ensures Disposals(s.log) == (if s.status == Closed then 1 else 0)
    ensures s.status == Closed ==> |s.log| > 0 && s.log[|s.log| - 1] == Disposed
    ensures IdentifiedDeliveries(s.log)
  {
    match Cycle(replies)
    case Halt(log, why) =>
      CycleLogFacts(log);
      if why == Faulted then
        DisposalsAppend(log, [Disposed]);
        IdentifiedAppend(log, [Disposed]);
        Outcome(log + [Disposed], Closed)
      else
        Outcome(log, Awaiting)
    case Next(log, rest) =>
      var s := Loop(rest);
      CycleLogFacts(log);
      DisposalsAppend(log, s.log);
      IdentifiedAppend(log, s.log);
      Outcome(log + s.log, s.status)
  }

  /**
    `OpenConnection(host, callback)`.  It dials the host on port 2210
    first.  A failed connect leaves nothing else in the log; otherwise the
    loop runs, with the disposal and identification guarantees of `Loop`.
  */
  function OpenConnection(host: string, replies: seq<Reply>): (s: Outcome)
    ensures |s.log| > 0 && s.log[0] == Dialed(host, Port)
    ensures s.status == ConnectFailed <==> |replies| > 0 && replies[0].Threw?
    ensures s.status == ConnectFailed ==> s.log == [Dialed(host, Port)]
    ensures s.status == Awaiting <==> !Throws(replies)
    ensures Disposals(s.log) == (if s.status == Closed then 1 else 0)
    ensures s.status == Closed ==> s.log[|s.log| - 1] == Disposed
    ensures IdentifiedDeliveries(s.log)
  {
    var dialed := [Dialed(host, Port)];
    if |replies| == 0 then Outcome(dialed, Awaiting)
    else if replies[0].Threw? then Outcome(dialed, ConnectFailed)
    else
      var s := Loop(replies[1..]);
      ThrowsAfter(replies, 1);
      DisposalsAppend(dialed, s.log);
      IdentifiedAppend(dialed, s.log);
      Outcome(dialed + s.log, s.status)
  }

  /** The four identification writes and the header read of an iteration all returned. */
  predicate HeaderArrived(replies: seq<Reply>) {
    Returns(replies, |Identification| + 1) == |Identification| + 1
  }

  /** The decode of the header buffer of an iteration whose header read returned. */
  function HeaderOf(replies: seq<Reply>): Decoded
    requires HeaderArrived(replies)
  {
    Decode(Filled(replies[4].data, HeaderSize))
  }

  /**
    The condition under which an iteration calls back: the header arrived,
    its data identifier is 1, `(int)block_size > 0`, and every one of the
    `(int)block_size` payload reads returned.
  */
  predicate CallsBack(replies: seq<Reply>) {
    && HeaderArrived(replies)
    && HeaderOf(replies).Accepted?
    && ReadsPayload(HeaderOf(replies).header)
    && Returns(replies[5..], PayloadLength(HeaderOf(replies).header)) == PayloadLength(HeaderOf(replies).header)
  }

  lemma {:induction false} NoDeliveries(log: seq<Event>)
    requires forall i :: 0 <= i < |log| ==> !log[i].Delivered?
    ensures Deliveries(log) == []
    decreases |log|
  {
    if |log| > 0 {
      NoDeliveries(log[1..]);
    }
  }

  /** An iteration's log delivers its one callback product, if any. */
  lemma CycleLogDeliveries(log: seq<Event>)
    requires CycleLog(log)
    ensures |log| <= 4 ==> Deliveries(log) == []
    ensures |log| == 5 ==> Deliveries(log) == [log[4].product]
  {
    if |log| <= 4 {
      NoDeliveries(log);
    } else {
      assert log == log[..4] + [log[4]];
      NoDeliveries(log[..4]);
      DeliveriesAppend(log[..4], [log[4]]);
      assert Deliveries([log[4]]) == [log[4].product] + Deliveries([]);
    }
  }

  /**
    A header whose data identifier is not 1, or whose block size fails the
    gate, ends the iteration right after the header read: no payload read,
    no callback, and the next iteration starts on the following reply.
  */
  lemma CycleSkips(replies: seq<Reply>)
    requires HeaderArrived(replies)
    requires HeaderOf(replies).Rejected? || !ReadsPayload(HeaderOf(replies).header)
    ensures Cycle(replies) == Next(SentEvents(Identification), replies[5..])
  {
    ReturnsOneMore(replies, |Identification|);
    CycleIdentified(replies);
    var rs := replies[|Identification|..];
    assert rs[1..] == replies[5..];
    ReceiveAfterHeader(rs);
    assert SentEvents(Identification) + [] == SentEvents(Identification);
  }

  /**
    An iteration calls back exactly under `CallsBack`, and then with the
    header's 37-character file name and the bytes the `(int)block_size`
    payload reads delivered, unchanged and in order.
  */
  lemma CycleDelivers(replies: seq<Reply>)
    ensures |Deliveries(Cycle(replies).log)| <= 1
    ensures |Deliveries(Cycle(replies).log)| == 1 <==> CallsBack(replies)
    ensures CallsBack(replies) ==>
      var h := HeaderOf(replies).header;
      Deliveries(Cycle(replies).log) == [Product(h.fileName, Gathered(replies[5..][..PayloadLength(h)]))]
  {
    CycleLogDeliveries(Cycle(replies).log);
    ReturnsOneMore(replies, |Identification|);
    if Returns(replies, |Identification|) == |Identification| {
      CycleIdentified(replies);
      var rs := replies[|Identification|..];
      if HeaderArrived(replies) {
        assert rs[1..] == replies[5..];
        ReceiveAfterHeader(rs);
        AfterHeaderLog(HeaderOf(replies), replies[5..]);
      } else {
        assert |rs| == 0 || rs[0].Threw?;
      }
    } else {
      CycleUnidentified(replies);
    }
  }

  /** `n + 1` successive calls return exactly when `n` do and then one more. */
  lemma {:induction false} ReturnsOneMore(replies: seq<Reply>, n: nat)
    ensures Returns(replies, n + 1) == n + 1 <==>
      Returns(replies, n) == n && n < |replies| && replies[n].Returned?
    decreases n
  {
    if n > 0 && |replies| > 0 && replies[0].Returned? {
      ReturnsOneMore(replies[1..], n - 1);
    }
  }

  /**
    Once the four identification writes returned, the iteration logs them and
    then what `Receive` logs, and completes or halts as `Receive` does.
  */
  lemma CycleIdentified(replies: seq<Reply>)
    requires Returns(replies, |Identification|) == |Identification|
    ensures Cycle(replies).log == SentEvents(Identification) + Receive(replies[|Identification|..]).log
    ensures Cycle(replies).Next? <==> Receive(replies[|Identification|..]).Next?
    ensures Cycle(replies).Next? ==> Cycle(replies).rest == Receive(replies[|Identification|..]).rest
    ensures Cycle(replies).Halt? ==> Cycle(replies).why == Receive(replies[|Identification|..]).why
  {
    assert Identification[..4] == Identification;
  }

  /** An iteration whose identification did not complete logs only some of its writes. */
  lemma CycleUnidentified(replies: seq<Reply>)
    requires Returns(replies, |Identification|) < |Identification|
    ensures |Cycle(replies).log| < |Identification|
  {
  }

  /** Once the header read returned, `Receive` continues with what follows the decode. */
  lemma ReceiveAfterHeader(rs: seq<Reply>)
    requires |rs| > 0 && rs[0].Returned?
    ensures Receive(rs) == AfterHeader(Decode(Filled(rs[0].data, HeaderSize)), rs[1..])
  {
  }

  /**
    After the header read, the callback happens exactly when the header is
    accepted, passes the gate and all `(int)block_size` payload reads return.
  */
  lemma AfterHeaderLog(d: Decoded, rs: seq<Reply>)
    ensures |AfterHeader(d, rs).log| == 1 <==>
      d.Accepted? && ReadsPayload(d.header) && Returns(rs, PayloadLength(d.header)) == PayloadLength(d.header)
    ensures |AfterHeader(d, rs).log| == 1 ==>
      AfterHeader(d, rs).log[0] == Delivered(Product(d.header.fileName, Gathered(rs[..PayloadLength(d.header)])))
  {
  }

  lemma LoopAfterNext(replies: seq<Reply>, log: seq<Event>, rest: seq<Reply>)
    requires Cycle(replies) == Next(log, rest)
    ensures Loop(replies) == Outcome(log + Loop(rest).log, Loop(rest).status)
  {
  }

  /*
    Where a step stops.  A step that completes made only calls that returned,
    and the replies after the ones it used play no part in it; a step that an
    exception ended is the same whatever replies would have followed.  So the
    session stops at the call that threw.
  */

  /**
    How a step goes when `more` replies follow the ones step `r` saw: a step
    that completed completes the same way and leaves `more` after its rest;
    a step an exception ended is unchanged.  A step that ran out of replies
    was blocked in a call, and more replies let it go on.
  */
  predicate Unaffected(r: Step, later: Step, more: seq<Reply>) {
    match r
    case Next(log, rest) => later == Next(log, rest + more)
    case Halt(_, why) => why == Faulted ==> later == r
  }

  /** Calls that returned, or a call that threw, are the same calls with more replies after them. */
  lemma {:induction false} ReturnsExtends(replies: seq<Reply>, more: seq<Reply>, n: nat)
    ensures Returns(replies, n) == n ==> Returns(replies + more, n) == n
    ensures Returns(replies, n) < n && Returns(replies, n) < |replies| ==>
      Returns(replies + more, n) == Returns(replies, n)
    decreases n
  {
    if n > 0 && |replies| > 0 {
      assert (replies + more)[0] == replies[0];
      if replies[0].Returned? {
        assert (replies + more)[1..] == replies[1..] + more;
        ReturnsExtends(replies[1..], more, n - 1);
      }
    }
  }

  /** The payload loop ignores the replies after the ones it used. */
  lemma {:induction false} ReadPayloadUnaffected(n: nat, replies: seq<Reply>, more: seq<Reply>)
    ensures ReadPayload(n, replies) == Stopped(Faulted) ==> ReadPayload(n, replies + more) == Stopped(Faulted)
    ensures ReadPayload(n, replies).Done? ==>
      ReadPayload(n, replies + more) == Done(ReadPayload(n, replies).content, ReadPayload(n, replies).rest + more)
    decreases n
  {
    if n > 0 && |replies| > 0 {
      assert (replies + more)[0] == replies[0];
      if replies[0].Returned? {
        assert (replies + more)[1..] == replies[1..] + more;
        ReadPayloadUnaffected(n - 1, replies[1..], more);
      }
    }
  }

  lemma DispatchUnaffected(h: ProductHeader, replies: seq<Reply>, more: seq<Reply>)
    requires ReadsPayload(h)
    ensures Unaffected(Dispatch(h, replies), Dispatch(h, replies + more), more)
  {
    ReadPayloadUnaffected(PayloadLength(h), replies, more);
    match ReadPayload(PayloadLength(h), replies)
    case Stopped(_) =>
    case Done(_, rest) =>
      if |rest| > 0 {
        assert (rest + more)[0] == rest[0];
        assert (rest + more)[1..] == rest[1..] + more;
      }
  }

  lemma AfterHeaderUnaffected(d: Decoded, replies: seq<Reply>, more: seq<Reply>)
    ensures Unaffected(AfterHeader(d, replies), AfterHeader(d, replies + more), more)
  {
    if d.Accepted? && ReadsPayload(d.header) {
      DispatchUnaffected(d.header, replies, more);
    }
  }

  lemma ReceiveUnaffected(rs: seq<Reply>, more: seq<Reply>)
    ensures Unaffected(Receive(rs), Receive(rs + more), more)
  {
    if |rs| > 0 {
      assert (rs + more)[0] == rs[0];
      if rs[0].Returned? {
        assert (rs + more)[1..] == rs[1..] + more;
        ReceiveAfterHeader(rs);
        ReceiveAfterHeader(rs + more);
        AfterHeaderUnaffected(Decode(Filled(rs[0].data, HeaderSize)), rs[1..], more);
      }
    }
  }

  /**
    An iteration does not look past the replies it used: with more replies
    after them it completes the same way, or ends on the same exception.
  */
  lemma CycleUnaffected(replies: seq<Reply>, more: seq<Reply>)
    ensures Unaffected(Cycle(replies), Cycle(replies + more), more)
  {
    ReturnsExtends(replies, more, |Identification|);
    var written := Returns(replies, |Identification|);
    if written == |Identification| {
      var rs := replies[|Identification|..];
      assert (replies + more)[|Identification|..] == rs + more;
      ReceiveUnaffected(rs, more);
      CycleIdentified(replies);
      CycleIdentified(replies + more);
      IdentifiedUnaffected(Cycle(replies), Cycle(replies + more), Receive(rs), Receive(rs + more), more);
    } else if written < |replies| {
      CycleFaultedWriting(replies);
      CycleFaultedWriting(replies + more);
    }
  }

  /** An identification write that threw ends the iteration with the writes before it. */
  lemma CycleFaultedWriting(replies: seq<Reply>)
    requires Returns(replies, |Identification|) < |Identification|
    requires Returns(replies, |Identification|) < |replies|
    ensures Cycle(replies) == Halt(SentEvents(Identification[..Returns(replies, |Identification|)]), Faulted)
  {
  }

  /** `Unaffected` carries over from what follows the identification to the whole iteration. */
  lemma IdentifiedUnaffected(c: Step, c': Step, r: Step, r': Step, more: seq<Reply>)
    requires c.log == SentEvents(Identification) + r.log && (c.Next? <==> r.Next?)
    requires c.Next? ==> c.rest == r.rest
    requires c.Halt? ==> c.why == r.why
    requires c'.log == SentEvents(Identification) + r'.log && (c'.Next? <==> r'.Next?)
    requires c'.Next? ==> c'.rest == r'.rest
    requires c'.Halt? ==> c'.why == r'.why
    requires Unaffected(r, r', more)
    ensures Unaffected(c, c', more)
  {
  }

  lemma LoopAfterFault(replies: seq<Reply>, log: seq<Event>)
    requires Cycle(replies) == Halt(log, Faulted)
    ensures Loop(replies) == Outcome(log + [Disposed], Closed)
  {
  }

  /**
    Once an exception has closed the session, replies that would have
    followed change nothing: the session stopped at the call that threw.
  */
  lemma {:induction false} LoopUnaffected(replies: seq<Reply>, more: seq<Reply>)
    ensures Loop(replies).status == Closed ==> Loop(replies + more) == Loop(replies)
    decreases |replies|
  {
    CycleUnaffected(replies, more);
    match Cycle(replies)
    case Halt(log, why) =>
      if why == Faulted {
        LoopAfterFault(replies, log);
        LoopAfterFault(replies + more, log);
      }
    case Next(log, rest) =>
      LoopAfterNext(replies, log, rest);
      LoopAfterNext(replies + more, log, rest + more);
      LoopUnaffected(rest, more);
  }

  /**
    A session that ended, by a failed connect or by an exception in the
    loop, is the same whatever replies would have followed.
  */
  lemma OpenConnectionUnaffected(host: string, replies: seq<Reply>, more: seq<Reply>)
    ensures OpenConnection(host, replies).status != Awaiting ==>
      OpenConnection(host, replies + more) == OpenConnection(host, replies)
  {
    if |replies| > 0 {
      assert (replies + more)[0] == replies[0];
      if replies[0].Returned? {
        assert (replies + more)[1..] == replies[1..] + more;
        LoopUnaffected(replies[1..], more);
      }
    }
  }

  /** The payload step made only calls that returned when it completes. */
  lemma DispatchReturned(h: ProductHeader, replies: seq<Reply>)
    requires ReadsPayload(h)
    ensures Dispatch(h, replies).Next? ==> ReturnedBefore(replies, |replies| - |Dispatch(h, replies).rest|)
  {
    var n := PayloadLength(h);
    match ReadPayload(n, replies)
    case Stopped(_) =>
    case Done(_, rest) =>
      if |rest| > 0 && rest[0].Returned? {
        assert replies[n] == rest[0];
      }
  }

  lemma AfterHeaderReturned(d: Decoded, replies: seq<Reply>)
    ensures AfterHeader(d, replies).Next? ==>
      ReturnedBefore(replies, |replies| - |AfterHeader(d, replies).rest|)
  {
    if d.Accepted? && ReadsPayload(d.header) {
      DispatchReturned(d.header, replies);
    }
  }

  /** A receive step that completes made only calls that returned. */
  lemma ReceiveReturned(rs: seq<Reply>)
    ensures Receive(rs).Next? ==> ReturnedBefore(rs, |rs| - |Receive(rs).rest|)
  {
    if |rs| > 0 && rs[0].Returned? {
      ReceiveAfterHeader(rs);
      AfterHeaderReturned(Decode(Filled(rs[0].data, HeaderSize)), rs[1..]);
      var r := Receive(rs);
      if r.Next? {
        ReturnedBeforeJoin(rs, 1, |rs| - |r.rest|);
      }
    }
  }

  /** An iteration that completes made only calls that returned: an exception always ends it. */
  lemma CycleReturned(replies: seq<Reply>)
    ensures Cycle(replies).Next? ==> ReturnedBefore(replies, |replies| - |Cycle(replies).rest|)
  {
    if Returns(replies, |Identification|) == |Identification| {
      CycleIdentified(replies);
      var rs := replies[|Identification|..];
      ReceiveReturned(rs);
      var r := Cycle(replies);
      if r.Next? {
        assert r.rest == Receive(rs).rest;
        ReturnedBeforeJoin(replies, |Identification|, |replies| - |r.rest|);
      }
    }
  }
}

=== FILE: wire.dfy ===
/**
  A well-behaved master server: for every product it accepts the four
  identification bytes, answers the header read with the 66 encoded header
  bytes, answers each one-byte payload read with one byte, and the callback
  returns.  Each header announces exactly its payload, which is not empty.
  Against such a server the session hands every product to the
  callback exactly once, unchanged, in wire order.
*/
module Wire {
  import opened Numeric
  import opened Codec
  import opened Header
  import opened Session

  /** One product on the wire: its header and the payload that follows it. */
  datatype Frame = Frame(header: ProductHeader, payload: seq<byte>)

  /** A frame whose header announces exactly its non-empty payload. */
  predicate Deliverable(f: Frame) {
    && WellFormed(f.header)
    && 0 < |f.payload|
    && f.header.blockSize == |f.payload|
  }

  /** A call that returned; for a read, one that returned 0 bytes. */
  const Ack: Reply := Returned([])

  /** One reply per payload byte, each a one-byte read. */
  function ByteReplies(bs: seq<byte>): (rs: seq<Reply>)
    ensures |rs| == |bs|
    ensures forall i :: 0 <= i < |bs| ==> rs[i] == Returned([bs[i]])
  {
    seq(|bs|, i requires 0 <= i < |bs| => Returned([bs[i]]))
  }

  /** The replies of one iteration that delivers `f`. */
  function FrameReplies(f: Frame): seq<Reply>
    requires Deliverable(f)
  {
    [Ack, Ack, Ack, Ack, Returned(Encode(f.header))] + ByteReplies(f.payload) + [Ack]
  }

  predicate AllDeliverable(fs: seq<Frame>) {
    forall i :: 0 <= i < |fs| ==> Deliverable(fs[i])
  }

  function WireReplies(fs: seq<Frame>): seq<Reply>
    requires AllDeliverable(fs)
  {
    if |fs| == 0 then [] else FrameReplies(fs[0]) + WireReplies(fs[1..])
  }

  function ProductOf(f: Frame): Product {
    Product(f.header.fileName, f.payload)
  }

  function Products(fs: seq<Frame>): seq<Product> {
    if |fs| == 0 then [] else [ProductOf(fs[0])] + Products(fs[1..])
  }

  /** One-byte reads that each delivered a byte gather exactly those bytes. */
  lemma GatheredByteReplies(bs: seq<byte>)
    ensures Gathered(ByteReplies(bs)) == bs
  {
    GatheredBytes(ByteReplies(bs));
  }

  /** The payload reads and the callback of a deliverable frame. */
  lemma DispatchOnFrame(f: Frame, rest: seq<Reply>)
    requires Deliverable(f)
    ensures ReadsPayload(f.header)
    ensures Dispatch(f.header, ByteReplies(f.payload) + [Ack] + rest) == Next([Delivered(ProductOf(f))], rest)
  {
    var h := f.header;
    assert ReadsPayload(h) && PayloadLength(h) == |f.payload|;
    var n := |f.payload|;
    var body := ByteReplies(f.payload) + [Ack] + rest;
    assert body[..n] == ByteReplies(f.payload);
    assert body[n..] == [Ack] + rest;
    assert Returns(body, n) == n;
    GatheredByteReplies(f.payload);
    var r := ReadPayload(n, body);
    assert r == Done(f.payload, [Ack] + rest);
  }

  /** A header read that returns an accepted header passing the gate leads to the payload and callback. */
  lemma ReceiveAccepted(rs: seq<Reply>, h: ProductHeader, end: nat)
    requires |rs| > 0 && rs[0].Returned?
    requires Decode(Filled(rs[0].data, HeaderSize)) == Accepted(h, end)
    requires ReadsPayload(h)
    ensures Receive(rs) == Dispatch(h, rs[1..])
  {
  }

  /** The header read of a deliverable frame, then its payload and callback. */
  lemma ReceiveOnFrame(f: Frame, rest: seq<Reply>)
    requires Deliverable(f)
    ensures Receive([Returned(Encode(f.header))] + (ByteReplies(f.payload) + [Ack] + rest))
         == Next([Delivered(ProductOf(f))], rest)
  {
    var h := f.header;
    var body := ByteReplies(f.payload) + [Ack] + rest;
    var rs := [Returned(Encode(h))] + body;
    assert Decode(Filled(rs[0].data, HeaderSize)) == Accepted(h, HeaderSize) by {
      assert Filled(rs[0].data, HeaderSize) == Encode(h);
      DecodeEncode(h);
    }
    assert Dispatch(h, body) == Next([Delivered(ProductOf(f))], rest) by {
      DispatchOnFrame(f, rest);
    }
    assert rs[1..] == body;
    ReceiveAccepted(rs, h, HeaderSize);
  }

  /** One iteration against a deliverable frame: identify, then call back with its product. */
  lemma CycleOnFrame(f: Frame, rest: seq<Reply>)
    requires Deliverable(f)
    ensures Cycle(FrameReplies(f) + rest) ==
      Next(SentEvents(Identification) + [Delivered(ProductOf(f))], rest)
  {
    var rs := FrameReplies(f) + rest;
    assert Returns(rs, 4) == 4;
    assert Identification[..4] == Identification;
    assert rs[4..] == [Returned(Encode(f.header))] + (ByteReplies(f.payload) + [Ack] + rest);
    ReceiveOnFrame(f, rest);
  }

  /** What one iteration that delivers `f` logs. */
  function FrameLog(f: Frame): seq<Event> {
    SentEvents(Identification) + [Delivered(ProductOf(f))]
  }

  /** The deliveries of an iteration that delivers `f`, followed by `tail`. */
  lemma FrameDeliveries(f: Frame, tail: seq<Event>)
    ensures Deliveries(FrameLog(f) + tail) == [ProductOf(f)] + Deliveries(tail)
  {
    DeliveriesAppend(FrameLog(f), tail);
    DeliveriesAppend(SentEvents(Identification), [Delivered(ProductOf(f))]);
    NoDeliveries(SentEvents(Identification));
    assert Deliveries([Delivered(ProductOf(f))]) == [ProductOf(f)] + Deliveries([]);
  }

  /** The loop against a deliverable frame runs one delivering iteration, then goes on. */
  lemma LoopOnFrame(f: Frame, rest: seq<Reply>)
    requires Deliverable(f)
    ensures Loop(FrameReplies(f) + rest) == Outcome(FrameLog(f) + Loop(rest).log, Loop(rest).status)
  {
    CycleOnFrame(f, rest);
    LoopAfterNext(FrameReplies(f) + rest, FrameLog(f), rest);
  }

  /** With no replies at all the session is blocked in the first write. */
  lemma LoopOnNothing()
    ensures Loop([]) == Outcome([], Awaiting)
  {
    assert Cycle([]) == Halt([], Starved);
  }

  /** The loop against a run of deliverable frames. */
  lemma {:induction false} LoopOnWire(fs: seq<Frame>)
    requires AllDeliverable(fs)
    ensures Loop(WireReplies(fs)).status == Awaiting
    ensures Deliveries(Loop(WireReplies(fs)).log) == Products(fs)
    decreases |fs|
  {
    if |fs| == 0 {
      LoopOnNothing();
    } else {
      var more := fs[1..];
      assert AllDeliverable(more);
      LoopOnWire(more);
      LoopOnFrame(fs[0], WireReplies(more));
      FrameDeliveries(fs[0], Loop(WireReplies(more)).log);
    }
  }

  /**
    End to end: after a successful connect, a server sending deliverable
    frames has every one of them handed to the callback, exactly once, in
    the order sent; the session is then still connected, waiting for the
    next write to return.
  */
  lemma DeliversInWireOrder(host: string, fs: seq<Frame>)
    requires AllDeliverable(fs)
    ensures OpenConnection(host, [Ack] + WireReplies(fs)).status == Awaiting
    ensures Deliveries(OpenConnection(host, [Ack] + WireReplies(fs)).log) == Products(fs)
  {
    LoopOnWire(fs);
    var replies := [Ack] + WireReplies(fs);
    assert replies[1..] == WireReplies(fs);
    DeliveriesAppend([Dialed(host, Port)], Loop(WireReplies(fs)).log);
    assert Deliveries([Dialed(host, Port)]) == [] + Deliveries([]);
  }

  /** "TEST.TXT" padded with spaces to the 37-character name field. */
  const TestName: string := "TEST.TXT                             "

  /** "HELLO" */
  const Hello: seq<byte> := [0x48, 0x45, 0x4C, 0x4C, 0x4F]

  /**
    The header of the end-to-end example: sequence number 42, type 1,
    category 2, code 3, channel 4, uncompressed, block 1 of 1, five bytes.
  */
  const TestHeader: ProductHeader := ProductHeader(42, 1, 2, 3, 4, TestName, 0, 1, 1, 5)

  /** The example frame is deliverable: its name fills the field with ASCII text. */
  lemma HelloDeliverable()
    ensures Deliverable(Frame(TestHeader, Hello))
  {
    assert |TestName| == NameLength;
    assert IsAscii(TestName);
  }

  /** A run of one frame. */
  lemma WireOfOne(f: Frame)
    requires Deliverable(f)
    ensures AllDeliverable([f])
    ensures WireReplies([f]) == FrameReplies(f)
    ensures Products([f]) == [ProductOf(f)]
  {
    assert [f][1..] == [];
    assert FrameReplies(f) + [] == FrameReplies(f);
  }

  /** A session whose server sends one deliverable frame hands exactly its product to the callback. */
  lemma DeliversOneFrame(host: string, f: Frame)
    requires Deliverable(f)
    ensures Deliveries(OpenConnection(host, [Ack] + FrameReplies(f)).log) == [ProductOf(f)]
  {
    WireOfOne(f);
    DeliversInWireOrder(host, [f]);
  }

  /**
    The end-to-end example: one frame carrying "HELLO" yields exactly one
    callback, with the padded name (padding kept) and the five bytes.
  */
  lemma HelloScenario(host: string)
    ensures Deliverable(Frame(TestHeader, Hello))
    ensures Deliveries(OpenConnection(host, [Ack] + FrameReplies(Frame(TestHeader, Hello))).log)
         == [Product(TestName, Hello)]
  {
    HelloDeliverable();
    DeliversOneFrame(host, Frame(TestHeader, Hello));
  }
}
